=== FILE: README.md ===
# elasticsearch-utils: importer and exporter core in Dafny

This project models the data path of two command-line tools.

- `es-importer.py` reads JSON lines, possibly compressed, or CSV rows. It
  turns every record into bulk lines: either a generated `index` action
  followed by the document, or the record passed through with its `index`
  action normalised. It cuts the resulting line groups into batches under a
  line budget (`chunk_size`). Each batch is sent as one bulk request or, in a
  dry run, printed as `PUT /<index>/_bulk[?pipeline=<p>]`, then the lines,
  then an empty line.
- `es-exporter.py` takes each search hit, selects the whole hit or its
  `_source`, and serialises it. The serialisation is written out directly or
  piped through a shell command whose trimmed output replaces it. Empty
  outputs are dropped.

Both tools first check their arguments (credentials, CA certificate without
HTTPS, and for the importer the action-generation options).

Modules:

- `Common`: `Option`, `Result` and the Python exceptions the code can raise
  (`KeyError`, `TypeError`, `AttributeError`, the unsupported-file
  `ValueError`).
- `Text`: `str.strip()` with Python's whitespace set, ASCII `lower()`,
  `rfind`, slicing from a negative index, `endswith`, `split`.
- `JsonValues`: a tagged JSON value and Python truthiness.
- `FileTypes`: extension dispatch and the line stream of `read_lines`.
- `Actions`: `process_action` and `process_stream`.
- `Batcher`: `process_data`, the batching fold.
- `DryRun`: the dry-run text and a parser that reads it back.
- `Config`: both tools' argument checks.
- `Importer` and `Exporter`: the two `main` pipelines put together.

Things the model takes as parameters:

- `json.dumps`, in both flavours: with `ensure_ascii` (the text fed to the
  post-process command) and without it (the exporter's direct output).
- The post-process command, as a function from its input text to its whole
  output.
- The decoded records, or the raw lines, that the readers would yield.

## Model

| member | source | states |
|---|---|---|
| `Text.Strip` | es-importer.py:24 | `strip()` returns a slice of its input with only whitespace cut from both ends, and the result neither begins nor ends with whitespace |
| `Text.LemmaStripSurrounded` | es-exporter.py:50 | stripping whitespace + text + whitespace gives exactly the text when the text has no whitespace at its ends |
| `Text.LemmaStripIdempotent` | es-importer.py:28 | stripping a stripped line changes nothing |
| `Text.Split` | es-importer.py:60 | `split('.')` gives at least one segment, and no segment contains a dot |
| `Text.LemmaJoinSplit` | es-importer.py:60 | joining the segments of `split('.')` with dots gives back the id path |
| `Text.LemmaSplitJoin` | es-importer.py:60 | splitting dot-joined, dot-free segments gives back exactly those segments |
| `Text.Lower` | es-importer.py:19 | `lower()` keeps the length and maps each character on its own |
| `Text.LemmaLowerNoCapital` | es-importer.py:19 | lower-casing leaves no ASCII capital, and lower-casing again changes nothing |
| `Text.RFind` | es-importer.py:19 | `rfind('.')` is the last position holding a dot, and -1 exactly when there is none |
| `Text.SliceFrom` | es-importer.py:19 | `s[i:]` from a position inside the text is the rest of it; a negative `i` counts from the end, clamped at the start; past the end it is empty |
| `Text.LemmaSliceFromSuffix` | es-importer.py:19 | `s[i:]` is always a suffix of `s`, and `s[-1:]` is the last character alone |
| `Text.EndsWith` | es-importer.py:55 | `endswith` holds exactly when the text is some prefix followed by the suffix |
| `FileTypes.Extension` | es-importer.py:19 | the extension starts at the last dot and holds no other dot; with no dot it is just the last character, lower-cased (`rfind` gives -1) |
| `FileTypes.ReaderFor` | es-importer.py:25-43 | `.json`/`.jsonl` are read as plain lines; `.gz`, `.bz2`, `.zip`, `.xz` each by its own decompressor; any other extension raises the unsupported-file ValueError |
| `FileTypes.LineReader` | es-importer.py:19-43 | the intended dispatch: `-` is read from standard input, and only `-`; no path is given to the CSV reader here |
| `FileTypes.SelectReader` | es-importer.py:55 | exactly the paths ending in `.csv` (case-sensitive) are read as CSV; every other path goes through `read_lines` |
| `FileTypes.LemmaExtensionOfName` | es-importer.py:19 | the extension of `base.ext` is `.ext` lower-cased, whatever dots `base` holds |
| `FileTypes.LemmaNoDotRejected` | es-importer.py:19-43 | a path without a dot (other than `-`) is always rejected |
| `FileTypes.LemmaUpperCaseGzip` | es-importer.py:19-29 | `X.GZ` is read as gzip, because the extension is lower-cased |
| `FileTypes.LemmaUpperCaseCsvRejected` | es-importer.py:55 | `X.CSV` is neither read as CSV nor accepted by `read_lines` |
| `FileTypes.ReadLines` | es-importer.py:17-43 | a supported path yields one stripped line per raw line, in order; an unsupported one yields nothing and raises the ValueError |
| `FileTypes.ReadLinesAsWritten` | es-importer.py:17-43 | `read_lines` as written: `-` and `.zip` paths raise a TypeError before any line, these are exactly the paths where it differs from `ReadLines`, and whenever it ends without an exception it agrees with `ReadLines` |
| `FileTypes.LemmaStdinRejected` | es-importer.py:21-23 | reading `-` as written yields nothing and raises a TypeError, where the intended reader yields every stdin line, stripped |
| `FileTypes.LemmaZipRejected` | es-importer.py:29-39 | reading a `.zip` path as written yields nothing and raises a TypeError, where the intended reader yields every line, stripped |
| `Actions.Walk` | es-importer.py:61-63 | no keys gives the record itself; looking a key up in a non-object raises TypeError and a missing key raises KeyError for it; any KeyError names one of the keys |
| `Actions.GeneratedAction` | es-importer.py:64-81 | the generated action is `{"index": {...}}`, normalised, whose `index` object holds exactly `_id` when an id is given and nothing otherwise |
| `Actions.LemmaWalkNest` | es-importer.py:60-63 | the key-path walk through an object built along the path reaches the value at its end |
| `Actions.LemmaWalkAppend` | es-importer.py:62-63 | walking `a + b` is walking `a` and then `b`, and the first failing lookup is the error raised |
| `Actions.ResolveId` | es-importer.py:58-63 | no id path gives no id; otherwise the id is the value the walk reaches, and the walk's failure is the error raised; a JSON null counts as no id |
| `Actions.ProcessAction` | es-importer.py:74-81 | succeeds exactly when `index` is an object; removes `_type`, sets `_id` only when an id is given, and leaves every other key of the action and of `index` as it was; a missing `index` raises KeyError, a list raises TypeError, any other value AttributeError |
| `Actions.ProcessRecord` | es-importer.py:57-72 | generate mode gives `[action, record]` with a normalised action and fails only when the id walk fails; pass-through gives one line: the normalised action when `index` is truthy, otherwise the record unchanged; a non-object record raises AttributeError |
| `Actions.ProcessStream` | es-importer.py:54-72 | one group per record, in order, up to the first record that raises; that record is the one right after the groups yielded |
| `Actions.LemmaTwoRecords` | es-importer.py:54-72 | two records that both succeed give their two groups, in order, and no failure |
| `Actions.LemmaGeneratePairs` | es-importer.py:64-67 | in generate mode every group is a normalised action followed by its own record |
| `Actions.LemmaPassThroughSingles` | es-importer.py:69-72 | in pass-through mode every group is one line: normalised when `index` is truthy, otherwise the record itself |
| `Actions.LemmaIdPathExample` | es-importer.py:60-63 | on `{"a": {"b": 7}}`, path `a.b` sets `_id` 7 and path `a.c` raises KeyError('c') |
| `Actions.LemmaNullIdOmitted` | es-importer.py:79-80 | an id path that reaches JSON null sets no `_id` |
| `Actions.LemmaDottedKeyUnreachable` | es-importer.py:60-63 | for any key containing a dot and any id path, the walk through an object holding only that key raises KeyError for the path's first segment: no id path reaches the key |
| `Batcher.Step` | es-importer.py:86-89 | one step yields at most one batch, exactly when the group would overflow the budget; the accumulator then fits the budget or is the group alone, and never holds fewer lines than the group just read |
| `Batcher.Loop` | es-importer.py:84-89 | after the loop no more batches were yielded than groups read; the accumulator fits the budget or is the last group alone, and is not empty after a non-empty last group |
| `Batcher.Batches` | es-importer.py:84-91 | the batches are those the loop yielded, followed by the final flush exactly when the accumulator is not empty |
| `Batcher.LemmaLoopKeepsLines` | es-importer.py:84-89 | the batches yielded by the loop, concatenated, then the accumulator, are the groups read, concatenated |
| `Batcher.ProcessData` | es-importer.py:83-91 | the loop computes the batching fold, and the batches concatenated are the groups concatenated |
| `Batcher.LemmaBatchesKeepLines` | es-importer.py:83-91 | nothing is lost, duplicated or reordered: the concatenated batches equal the concatenated groups |
| `Batcher.LemmaLoopPartsAgree` | es-importer.py:86-89 | each batch is the concatenation of the groups added to it |
| `Batcher.LemmaWholeGroups` | es-importer.py:86-89 | no group is split: the batches' group lists, concatenated, are the groups |
| `Batcher.LemmaBatchBound` | es-importer.py:86-89 | a batch longer than `chunk_size` consists of a single group |
| `Batcher.LemmaFlushOnlyWhenFull` | es-importer.py:86-88 | a batch is yielded only when the next group would not have fit beside it |
| `Batcher.LemmaEmptyBatch` | es-importer.py:86-91 | a batch is empty exactly when it is the first one and the first group alone exceeds `chunk_size`; the final flush never yields an empty batch |
| `Batcher.LemmaPairBatches` | es-importer.py:86-89 | when every group is a pair, every batch has even length and each of its aligned pairs is one of the groups |
| `DryRun.Header` | es-importer.py:104-105 | the request line starts `PUT /<index>/_bulk` and carries more text exactly when a pipeline is given, namely `?pipeline=<p>` |
| `DryRun.LemmaHeaderRoundTrip` | es-importer.py:104-105 | the request line names the index and carries `?pipeline=<p>` exactly when a pipeline is given |
| `DryRun.Render` | es-importer.py:103-108 | one batch prints as the request line, the batch's lines in order, and one empty line |
| `DryRun.LemmaParseRenderAll` | es-importer.py:102-108 | when no line is empty, the printed text splits back into exactly the batches, in order |
| `DryRun.LemmaDryRunExample` | es-importer.py:104-108 | index `foo` with pipeline `bar` prints `PUT /foo/_bulk?pipeline=bar`, and without a pipeline `PUT /foo/_bulk` |
| `Config.CheckImporter` | es-importer.py:113-123 | the importer runs exactly when all four checks pass, and the first failing check, in source order, is the error raised |
| `Config.CheckExporter` | es-exporter.py:77-81 | the exporter runs exactly when a password comes only with user `elastic` and a CA certificate only with HTTPS; the credential check is made first |
| `Importer.LemmaGroupsNonEmpty` | es-importer.py:64-72 | every record that succeeds gives at least one line |
| `Importer.DispatchedBatches` | es-importer.py:83-102 | batches reach `process_file` in order and the failure is the stream's; without a failure every batch arrives and so every line; when a record raises, exactly the final flush is missing, so the lines still in the accumulator never arrive |
| `Importer.ProcessFile` | es-importer.py:100-110 | a dry run sends nothing and prints every batch handed over; otherwise nothing is printed and each batch is the body of one request to the given index and pipeline, in order; the run fails exactly when the stream raised |
| `Importer.ModeOf` | es-importer.py:57 | actions are generated exactly when `generate_action` is set, with the given id path |
| `Importer.Import` | es-importer.py:112-132 | refused arguments and an unsupported file type stop the run before any output; a run with no failure passed every check; once the checks pass, the run is `process_file` in the mode the arguments choose |
| `Importer.LemmaImportSendsEveryRecord` | es-importer.py:112-132 | an accepted import in generate mode whose records all succeed prints nothing, sends to the given index and pipeline, and sends every record in order, each after its normalised action |
| `Importer.LemmaPairsStayTogether` | es-importer.py:64-91 | in generate mode every batch handed over has even length, and each aligned pair in it is one record's normalised action and document |
| `Importer.LemmaEveryRecordSentInOrder` | es-importer.py:64-91 | without a failure, in generate mode the lines sent are, in record order, each record's action followed by the record |
| `Importer.LemmaPassThroughMaySplitPair` | es-importer.py:69-89 | in pass-through mode with a budget of one line, any two records that pass through, such as an action line and its document, go out in two different batches, one line each |
| `Importer.LemmaActionWithoutTypeKept` | es-importer.py:69-70 | in pass-through mode an action line whose `index` object has no `_type` is sent exactly as read |
| `Importer.LemmaDryRunShowsBatches` | es-importer.py:100-110 | the dry-run text reads back into exactly the serialised bodies a real run sends, and both runs end the same way |
| `Exporter.Select` | es-exporter.py:60 | `--full` selects the whole hit; otherwise `_source`, and a hit without it raises KeyError |
| `Exporter.PostProcessDocument` | es-exporter.py:42-50 | the result is the command's output for the ASCII-escaped serialisation, with whitespace cut from both ends and nothing else changed |
| `Exporter.Output` | es-exporter.py:60-64 | a hit's output exists exactly when selection succeeds, and otherwise the selection's error is raised; it is the post-processed text when a non-empty command is given, otherwise the direct serialisation |
| `Exporter.ProcessResults` | es-exporter.py:54-71 | the run ends without an exception exactly when every hit has what `--full` asks for; otherwise with the lookup error of the first hit that lacks it; no line is empty and there are at most as many lines as hits (which hit each line comes from is `Exporter.LemmaFilteredImage`) |
| `Exporter.Emit` | es-exporter.py:59-67 | no line written is empty, no more lines are written than hits handled, and a failure is the exception of the first hit that raises (each line comes from one hit, and no hit is written twice: `Exporter.LemmaOriginsSound`, `Exporter.LemmaOriginsIncreasing`) |
| `Exporter.LemmaOriginsSound` | es-exporter.py:59-67 | every line written is the output of a handled hit, that is, a hit before the first exception |
| `Exporter.LemmaOriginsIncreasing` | es-exporter.py:59-67 | the hits the lines come from strictly increase, so lines keep hit order and no hit is written twice |
| `Exporter.LemmaOriginsComplete` | es-exporter.py:66-67 | every handled hit whose output is not empty has its line written |
| `Exporter.LemmaFilteredImage` | es-exporter.py:54-71 | the lines written are the filtered image of the hits: each one hit's output, in hit order, no hit twice, every non-empty output present |
| `Exporter.LemmaPostProcessedLinesTrimmed` | es-exporter.py:50 | with a command, no line written begins or ends with whitespace |
| `Exporter.LemmaBlankFilterDropsAll` | es-exporter.py:50-67 | a command whose output is only whitespace drops every document |
| `Exporter.LemmaEmitEvery` | es-exporter.py:66-67 | when no output is empty, every handled output is written, one line each, in order |
| `Exporter.LemmaDirectOutput` | es-exporter.py:63-67 | without a command, every hit handled gives exactly its serialisation, one line per hit, in order |
| `Exporter.LemmaCopiedDocument` | es-exporter.py:42-50 | a command that copies its input returns the direct serialisation of a document that has no surrounding whitespace and reads the same ASCII-escaped |
| `Exporter.LemmaIdentityOutput` | es-exporter.py:61-64 | a copying command gives the direct output when both serialisations agree and have no surrounding whitespace |
| `Exporter.LemmaIdentityFilter` | es-exporter.py:59-67 | a command that copies its input changes nothing, provided every selected document serialises the same both ways |
| `Exporter.Export` | es-exporter.py:74-81 | refused arguments write nothing and name the failed check; otherwise the run is `process_results` over the hits |

## Left out

- The Elasticsearch client is left out, because it is network I/O through
  a library outside this model. This covers construction, `es.bulk`,
  `async_scan`, `es.close` and the query file. A bulk request is recorded as
  the index, the pipeline and the batch's values.
- Every `es.bulk` call is assumed to return normally. A client or server
  error would end `process_file` at es-importer.py:110, but the model never
  stops there. This includes the empty body that the yield at
  es-importer.py:87 can hand to `send_data` when the first group alone is
  over budget. So `Importer.ProcessFile` promises what is sent, not what the
  server accepts.
- Reading files and standard input is left out for the same reason: gzip,
  bz2, zip and xz decompression and `aiocsv` decoding with
  `QUOTE_NONNUMERIC` are all foreign code. `ReadLines` takes the raw lines
  as given. The importer pipeline takes decoded records, because
  `json.loads` and CSV parsing are left out.
- `json.dumps` text formatting is a parameter. The model assumes only what
  each lemma states about it, such as never returning an empty string.
  `send_data` re-parses the lines it sends; the model sends the values
  directly, assuming `json.loads(json.dumps(v)) == v`.
- The subprocess of `post_process_document` is modelled as a function from
  its input text to its whole output. Its exit status is not modelled (the
  code never checks it), and neither is the text encoding.
- `Exporter.ProcessResults`: "ends without an exception exactly when"
  covers only the `_source` lookup. Because text encoding is not modelled,
  two exceptions that would end the run are never raised by the model: a
  UnicodeDecodeError from `output_bytes.decode(encoding)`
  (es-exporter.py:50) on command output that is not valid in the encoding,
  and a UnicodeEncodeError from `print` (es-exporter.py:67) on an
  `ensure_ascii=False` line the output encoding cannot represent.
- `asyncio`, argparse wiring and the `print`/file output are left out. The
  exporter's output is modelled as its sequence of lines.
- JSON numbers are a decimal mantissa and exponent. NaN, infinities and
  float rounding are not modelled.
- The order of keys in a Python dict is not modelled: objects are maps.
- `lower()` is modelled on ASCII letters only. The dispatch result is
  the same either way. The only non-ASCII characters Python lower-cases
  into ASCII are the Kelvin sign (to `k`, which no supported extension
  holds) and the dotted capital I (to `i` plus a combining dot, which still
  matches nothing).
- `read_jsonl` passes `encoding=` where `read_lines` expects
  `file_encoding` (es-importer.py:46). The model follows the evident
  intent and passes the encoding through.
- `username is not 'elastic'` (es-importer.py:113) is an identity test in
  Python. It is modelled as inequality, which the exporter's `!=`
  (es-exporter.py:77) shows was intended. With a password, this check
  rejects every user other than `elastic`; it does not compare with a
  missing password only.
- `Exporter.Emit`: each element of the lines is one `print` call. A
  post-process command's output may hold newlines, so one element can be
  several lines of the output file, or contain empty ones. The text is not
  split into file lines, because only the sequence of printed outputs is
  modelled.
- `chunk_size` arrives untyped from the command line. It is modelled as a
  natural number.
- `Exporter.LemmaIdentityFilter` assumes each selected document serialises
  the same with and without `ensure_ascii`. That holds for ASCII-only
  documents; for others, a copying command writes `\u` escapes where the
  direct output would not.

## Findings

| source | as written | input that shows it | evidently intended | confidence | as-written member | corrected member |
|---|---|---|---|---|---|---|
| es-importer.py:22 | `aiofiles.open` is given the function `sys.stdin.readline` instead of a file name, which `open` rejects with a TypeError. The separate `if` at line 25 would also fall through to the extension test, but it is never reached | file path `-` with any standard input: no line is yielded and a TypeError is raised | `-` reads standard input line by line, and then stops | not executed | `FileTypes.LemmaStdinRejected` | `FileTypes.ReadLines` |
| es-importer.py:33,39 | `.zip` maps to `zipfile.ZipFile`, which is called as `ZipFile(file, 'rt', encoding=...)`; it accepts no `encoding` argument (nor mode `'rt'`), so the call raises a TypeError | any path ending in `.zip`: no line is yielded and a TypeError is raised | the archive's text is read line by line, as for the other compressed types | not executed | `FileTypes.LemmaZipRejected` | `FileTypes.ReadLines` |

=== FILE: actions.dfy ===
/** Turning decoded records into bulk lines (`process_stream` and
    `process_action` in es-importer.py). A group is the list of lines one
    record produces; lines are kept as `Json` values and serialised later. */
module Actions {
  import opened Common
  import opened Text
  import opened JsonValues

  /** The two ways records become bulk lines. */
  datatype Mode =
    | Generate(idField: Option<string>)   // synthesise an `index` action per record
    | PassThrough                         // the input already holds action and document lines

  /** `id = obj; for key in keypath: id = id[key]`: an empty path gives the
      object itself, and a failing walk raises TypeError (indexing a
      non-object) or KeyError for one of the path's keys. */
  function Walk(v: Json, keys: seq<string>): (r: Result<Json>)
    ensures |keys| == 0 ==> r == Ok(v)
    ensures |keys| > 0 && !v.Object? ==> r == Err(TypeError)
    ensures |keys| > 0 && v.Object? && keys[0] !in v.fields ==> r == Err(KeyError(keys[0]))
    ensures r.Err? ==> r.error == TypeError || (r.error.KeyError? && r.error.key in keys)
    decreases |keys|
  {
    if |keys| == 0 then Ok(v)
    else match v
      case Object(m) => if keys[0] in m then Walk(m[keys[0]], keys[1..]) else Err(KeyError(keys[0]))
      case _ => Err(TypeError)
  }

  /** The object that holds `leaf` under the key path `keys`. */
  function Nest(keys: seq<string>, leaf: Json): (v: Json)
    decreases |keys|
  {
    if |keys| == 0 then leaf else Object(map[keys[0] := Nest(keys[1..], leaf)])
  }

  /** Walking a key path through the object built along it reaches the leaf. */
  lemma {:induction false} LemmaWalkNest(keys: seq<string>, leaf: Json)
    ensures Walk(Nest(keys, leaf), keys) == Ok(leaf)
    decreases |keys|
  {
    if |keys| > 0 {
      LemmaWalkNest(keys[1..], leaf);
    }
  }

  /** Walking `a + b` is walking `a` and then `b` from where `a` ended; the
      first failure is the one reported. */
  lemma {:induction false} LemmaWalkAppend(v: Json, a: seq<string>, b: seq<string>)
    ensures Walk(v, a + b) == (match Walk(v, a) case Ok(u) => Walk(u, b) case Err(e) => Err(e))
    decreases |a|
  {
    if |a| == 0 {
      assert a + b == b;
    } else {
      assert (a + b)[0] == a[0];
      assert (a + b)[1..] == a[1..] + b;
      match v
      case Object(m) =>
        if a[0] in m {
          LemmaWalkAppend(m[a[0]], a[1..], b);
        }
      case _ =>
    }
  }

  /** The id `process_stream` passes to `process_action`: `None` when no id
      path is configured, and also when the path reaches a JSON null (which
      `json.loads` turns into Python's `None`). */
  function ResolveId(record: Json, idField: Option<string>): (r: Result<Option<Json>>)
    ensures idField.None? ==> r == Ok(None)
    ensures idField.Some? ==> (r.Ok? <==> Walk(record, Split(idField.value, '.')).Ok?)
    ensures r.Ok? && r.value.Some? ==>
      r.value.value != Null && Walk(record, Split(idField.value, '.')) == Ok(r.value.value)
    ensures r.Ok? && r.value.None? && idField.Some? ==> Walk(record, Split(idField.value, '.')) == Ok(Null)
    ensures r.Err? ==> idField.Some? && Walk(record, Split(idField.value, '.')) == Err(r.error)
  {
    match idField
    case None => Ok(None)
    case Some(path) =>
      match Walk(record, Split(path, '.'))
      case Ok(v) => if v == Null then Ok(None) else Ok(Some(v))
      case Err(e) => Err(e)
  }

  /** An action object whose `index` entry is an object without `_type`. */
  predicate Normalised(action: Json) {
    && action.Object?
    && "index" in action.fields
    && action.fields["index"].Object?
    && "_type" !in action.fields["index"].fields
  }

  /** `process_action(obj, id)`: drop `_type` from `obj['index']` and, when an
      id is given, set `_id`; everything else is left as it was. */
  function ProcessAction(obj: Json, id: Option<Json>): (r: Result<Json>)
    ensures r.Ok? <==> obj.Object? && "index" in obj.fields && obj.fields["index"].Object?
    ensures r.Ok? ==> Normalised(r.value) && r.value.fields.Keys == obj.fields.Keys
    ensures r.Ok? ==> forall k :: k in obj.fields && k != "index" ==> r.value.fields[k] == obj.fields[k]
    ensures r.Ok? ==>
      var before := obj.fields["index"].fields;
      var after := r.value.fields["index"].fields;
      && after.Keys == (before.Keys - {"_type"}) + (if id.Some? then {"_id"} else {})
      && (id.Some? ==> after["_id"] == id.value)
      && forall k :: k in before && k != "_type" && (id.None? || k != "_id") ==> after[k] == before[k]
    ensures obj.Object? && "index" !in obj.fields ==> r == Err(KeyError("index"))
    ensures obj.Object? && "index" in obj.fields && obj.fields["index"].Array? ==> r == Err(TypeError)
    ensures obj.Object? && "index" in obj.fields && !obj.fields["index"].Array? && !obj.fields["index"].Object? ==>
      r == Err(AttributeError)
    ensures !obj.Object? ==> r == Err(TypeError)
  {
    match obj
    case Object(m) =>
      if "index" !in m then Err(KeyError("index"))
      else
        (match m["index"]
         case Object(inner) =>
           var dropped := inner - {"_type"};
           var updated := if id.Some? then dropped["_id" := id.value] else dropped;
           Ok(Object(m["index" := Object(updated)]))
         case Array(_) => Err(TypeError)       // list.pop takes one argument
         case _ => Err(AttributeError))        // no `pop` method
    case _ => Err(TypeError)
  }

  /** The action line generated for a record: `{"index": {}}`, with `_id`
      when an id was resolved. */
  function GeneratedAction(id: Option<Json>): (action: Json)
    ensures Normalised(action) && action.fields.Keys == {"index"}
    ensures "_id" in action.fields["index"].fields <==> id.Some?
    ensures id.Some? ==> action.fields["index"].fields == map["_id" := id.value]
    ensures id.None? ==> action.fields["index"].fields == map[]
  {
    Object(map["index" := Object(if id.Some? then map["_id" := id.value] else map[])])
  }

  /** `obj.get('index')` is truthy. */
  predicate HasIndexAction(record: Json) {
    record.Object? && "index" in record.fields && Truthy(record.fields["index"])
  }

  /** The lines one record becomes (one iteration of `process_stream`). */
  function ProcessRecord(record: Json, mode: Mode): (r: Result<seq<Json>>)
    ensures mode.Generate? ==> (r.Ok? <==> ResolveId(record, mode.idField).Ok?)
    ensures mode.Generate? && r.Ok? ==>
      r.value == [GeneratedAction(ResolveId(record, mode.idField).value), record]
      && Normalised(r.value[0])
    ensures mode.PassThrough? ==>
      (r.Ok? <==> record.Object? && (HasIndexAction(record) ==> record.fields["index"].Object?))
    ensures mode.PassThrough? && r.Ok? ==> |r.value| == 1
    ensures mode.PassThrough? && r.Ok? && !HasIndexAction(record) ==> r.value[0] == record
    ensures mode.PassThrough? && r.Ok? && HasIndexAction(record) ==>
      && Normalised(r.value[0])
      && r.value[0] == Object(record.fields["index" := Object(record.fields["index"].fields - {"_type"})])
    ensures mode.PassThrough? && !record.Object? ==> r == Err(AttributeError)
  {
    match mode
    case Generate(idField) =>
      var id :- ResolveId(record, idField);
      var action := ProcessAction(Object(map["index" := Object(map[])]), id);
      assert action.value == GeneratedAction(id);
      Ok([action.value, record])
    case PassThrough =>
      match record
      case Object(m) =>
        if HasIndexAction(record) then
          var action :- ProcessAction(record, None);
          assert action.fields["index"] == Object(m["index"].fields - {"_type"});
          assert action == Object(m["index" := Object(m["index"].fields - {"_type"})]);
          Ok([action])
        else
          Ok([record])
      case _ => Err(AttributeError)
  }

  /** What `process_stream` yielded before it stopped, and the exception it
      stopped with, if any. */
  datatype Produced = Produced(groups: seq<seq<Json>>, failure: Option<Error>)

  /** `process_stream`: one group per record, in record order, up to the first
      record that raises. */
  function ProcessStream(records: seq<Json>, mode: Mode): (p: Produced)
    ensures |p.groups| <= |records|
    ensures forall i :: 0 <= i < |p.groups| ==> ProcessRecord(records[i], mode) == Ok(p.groups[i])
    ensures p.failure.None? <==> |p.groups| == |records|
    ensures p.failure.Some? ==> ProcessRecord(records[|p.groups|], mode) == Err(p.failure.value)
    decreases |records|
  {
    if |records| == 0 then Produced([], None)
    else
      match ProcessRecord(records[0], mode)
      case Err(e) => Produced([], Some(e))
      case Ok(g) =>
        var rest := ProcessStream(records[1..], mode);
        assert forall i :: 1 <= i < |records| ==> records[1..][i - 1] == records[i];
        Produced([g] + rest.groups, rest.failure)
  }

  /** Two records that each succeed give their two groups, in order. */
  lemma LemmaTwoRecords(a: Json, b: Json, mode: Mode)
    requires ProcessRecord(a, mode).Ok? && ProcessRecord(b, mode).Ok?
    ensures ProcessStream([a, b], mode)
      == Produced([ProcessRecord(a, mode).value, ProcessRecord(b, mode).value], None)
  {
    assert [a, b][1..] == [b];
    assert [b][1..] == [];
  }

  /** Generate mode: each record yields exactly an action line followed by
      the record itself. */
  lemma LemmaGeneratePairs(records: seq<Json>, idField: Option<string>)
    ensures var p := ProcessStream(records, Generate(idField));
      forall i :: 0 <= i < |p.groups| ==>
        && |p.groups[i]| == 2
        && Normalised(p.groups[i][0])
        && p.groups[i][1] == records[i]
    ensures var p := ProcessStream(records, Generate(idField));
      forall g :: g in p.groups ==> |g| == 2 && Normalised(g[0])
  {
    var p := ProcessStream(records, Generate(idField));
    forall i | 0 <= i < |p.groups|
      ensures |p.groups[i]| == 2 && Normalised(p.groups[i][0]) && p.groups[i][1] == records[i]
    {
      assert ProcessRecord(records[i], Generate(idField)) == Ok(p.groups[i]);
    }
  }

  /** Pass-through mode: each record yields exactly one line. */
  lemma LemmaPassThroughSingles(records: seq<Json>)
    ensures var p := ProcessStream(records, PassThrough);
      forall i :: 0 <= i < |p.groups| ==>
        && |p.groups[i]| == 1
        && (HasIndexAction(records[i]) ==> Normalised(p.groups[i][0]))
        && (!HasIndexAction(records[i]) ==> p.groups[i][0] == records[i])
  {
    var p := ProcessStream(records, PassThrough);
    forall i | 0 <= i < |p.groups|
      ensures |p.groups[i]| == 1
      ensures HasIndexAction(records[i]) ==> Normalised(p.groups[i][0])
      ensures !HasIndexAction(records[i]) ==> p.groups[i][0] == records[i]
    {
      assert ProcessRecord(records[i], PassThrough) == Ok(p.groups[i]);
    }
  }

  /** With `{"a": {"b": 7}}`, the id path `a.b` gives `_id` 7 and the path
      `a.c` raises KeyError('c'). */
  lemma LemmaIdPathExample()
    ensures var record := Object(map["a" := Object(map["b" := Number(7, 0)])]);
      && ProcessRecord(record, Generate(Some("a.b")))
         == Ok([Object(map["index" := Object(map["_id" := Number(7, 0)])]), record])
      && ProcessRecord(record, Generate(Some("a.c"))) == Err(KeyError("c"))
  {
    LemmaSplitJoin(["a", "b"], '.');
    assert Join(["a", "b"], '.') == "a.b";
    LemmaSplitJoin(["a", "c"], '.');
    assert Join(["a", "c"], '.') == "a.c";
  }

  /** An id path that reaches a JSON null sets no `_id`: the `id is not None`
      test cannot tell it from a missing id path. */
  lemma LemmaNullIdOmitted(record: Json, path: string)
    requires Walk(record, Split(path, '.')) == Ok(Null)
    ensures ProcessRecord(record, Generate(Some(path))) == Ok([GeneratedAction(None), record])
    ensures "_id" !in GeneratedAction(None).fields["index"].fields
  {
  }

  /** A key containing a dot can never be reached by an id path: no segment
      of `split('.')` contains a dot, so the lookup raises KeyError. */
  lemma LemmaDottedKeyUnreachable(path: string, k: string, v: Json)
    requires '.' in k
    ensures var keys := Split(path, '.');
      Walk(Object(map[k := v]), keys) == Err(KeyError(keys[0]))
  {
    var keys := Split(path, '.');
    assert '.' !in keys[0];
    assert keys[0] != k;
  }
}

=== FILE: batcher.dfy ===
/** `process_data` in es-importer.py: cutting the stream of line groups into
    batches, with a budget counted in lines. A group (the one or two lines of
    one record) is added whole; before it is added, the accumulator is
    yielded and emptied if the group would take it over the budget. */
module Batcher {

  /** Concatenation, in order. */
  function Flatten<T>(xss: seq<seq<T>>): (flat: seq<T>)
    decreases |xss|
  {
    if |xss| == 0 then [] else Flatten(xss[..|xss| - 1]) + xss[|xss| - 1]
  }

  lemma FlattenSnoc<T>(xss: seq<seq<T>>, xs: seq<T>)
    ensures Flatten(xss + [xs]) == Flatten(xss) + xs
  {
    assert (xss + [xs])[..|xss|] == xss;
  }

  /** The loop's variables: the batches yielded so far and `processed_data`. */
  datatype State<T> = State(yielded: seq<seq<T>>, pending: seq<T>)

  /** One iteration of the `async for` loop (lines 86-89): the accumulator
      is yielded exactly when the group would take it over budget, nothing
      yielded is taken back, and the group just read stays in the accumulator. */
  function Step<T>(s: State<T>, lines: seq<T>, chunkSize: nat): (r: State<T>)
    ensures s.yielded <= r.yielded && |r.yielded| <= |s.yielded| + 1
    ensures |r.yielded| > |s.yielded| <==> |s.pending| + |lines| > chunkSize
    ensures |r.pending| <= chunkSize || r.pending == lines
    ensures |lines| <= |r.pending|
  {
    if |s.pending| + |lines| > chunkSize then State(s.yielded + [s.pending], lines)
    else State(s.yielded, s.pending + lines)
  }

  /** The loop run over all groups. When the group stream raises, this is
      where `process_data` stops: what was yielded stays yielded, and the
      final flush is never reached. */
  function Loop<T>(groups: seq<seq<T>>, chunkSize: nat): (s: State<T>)
    ensures |s.yielded| <= |groups|
    ensures |s.pending| <= chunkSize || (|groups| > 0 && s.pending == groups[|groups| - 1])
    ensures |groups| > 0 && |groups[|groups| - 1]| > 0 ==> |s.pending| > 0
    decreases |groups|
  {
    if |groups| == 0 then State([], [])
    else Step(Loop(groups[..|groups| - 1], chunkSize), groups[|groups| - 1], chunkSize)
  }

  /** Every batch `process_data` yields: the loop, then the final flush of a
      non-empty accumulator (lines 90-91). */
  function Batches<T>(groups: seq<seq<T>>, chunkSize: nat): (bs: seq<seq<T>>)
    ensures Loop(groups, chunkSize).yielded <= bs
    ensures |bs| == |Loop(groups, chunkSize).yielded| + 1 <==> |Loop(groups, chunkSize).pending| > 0
    ensures |bs| > |Loop(groups, chunkSize).yielded| ==> bs[|bs| - 1] == Loop(groups, chunkSize).pending
  {
    var s := Loop(groups, chunkSize);
    if |s.pending| > 0 then s.yielded + [s.pending] else s.yielded
  }

  /** `process_data` as written, as a loop over the groups. */
  method ProcessData<T>(groups: seq<seq<T>>, chunkSize: nat) returns (batches: seq<seq<T>>)
    ensures batches == Batches(groups, chunkSize)
    ensures Flatten(batches) == Flatten(groups)
  {
    batches := [];
    var processed: seq<T> := [];
    var i := 0;
    while i < |groups|
      invariant 0 <= i <= |groups|
      invariant State(batches, processed) == Loop(groups[..i], chunkSize)
    {
      var lines := groups[i];
      assert groups[..i + 1][..i] == groups[..i];
      if |processed| + |lines| > chunkSize {
        batches := batches + [processed];
        processed := [];
      }
      processed := processed + lines;
      i := i + 1;
    }
    assert groups[..i] == groups;
    if |processed| > 0 {
      batches := batches + [processed];
    }
    LemmaBatchesKeepLines(groups, chunkSize);
  }

  /** One step adds the group's lines after everything held so far. */
  lemma LemmaStepKeepsLines<T>(s: State<T>, lines: seq<T>, chunkSize: nat)
    ensures var r := Step(s, lines, chunkSize);
      Flatten(r.yielded) + r.pending == (Flatten(s.yielded) + s.pending) + lines
  {
    if |s.pending| + |lines| > chunkSize {
      FlattenSnoc(s.yielded, s.pending);
    }
  }

  lemma {:induction false} LemmaLoopKeepsLines<T>(groups: seq<seq<T>>, chunkSize: nat)
    ensures Flatten(Loop(groups, chunkSize).yielded) + Loop(groups, chunkSize).pending == Flatten(groups)
    decreases |groups|
  {
    if |groups| > 0 {
      var init := groups[..|groups| - 1];
      var g := groups[|groups| - 1];
      LemmaLoopKeepsLines(init, chunkSize);
      LemmaStepKeepsLines(Loop(init, chunkSize), g, chunkSize);
      assert groups == init + [g];
      FlattenSnoc(init, g);
    }
  }

  /** Nothing is lost, duplicated or reordered: the batches, concatenated,
      are the groups, concatenated. */
  lemma LemmaBatchesKeepLines<T>(groups: seq<seq<T>>, chunkSize: nat)
    ensures Flatten(Batches(groups, chunkSize)) == Flatten(groups)
  {
    var s := Loop(groups, chunkSize);
    LemmaLoopKeepsLines(groups, chunkSize);
    if |s.pending| > 0 {
      FlattenSnoc(s.yielded, s.pending);
    } else {
      assert s.pending == [];
    }
  }

  /** The same loop, remembering which groups each batch was made of. */
  datatype Partition<T> = Partition(yielded: seq<seq<seq<T>>>, pending: seq<seq<T>>)

  function StepParts<T>(p: Partition<T>, lines: seq<T>, chunkSize: nat): (r: Partition<T>) {
    if |Flatten(p.pending)| + |lines| > chunkSize then Partition(p.yielded + [p.pending], [lines])
    else Partition(p.yielded, p.pending + [lines])
  }

  function LoopParts<T>(groups: seq<seq<T>>, chunkSize: nat): (p: Partition<T>)
    decreases |groups|
  {
    if |groups| == 0 then Partition([], [])
    else StepParts(LoopParts(groups[..|groups| - 1], chunkSize), groups[|groups| - 1], chunkSize)
  }

  /** The groups each batch of `Batches(groups, chunkSize)` is made of. */
  function BatchParts<T>(groups: seq<seq<T>>, chunkSize: nat): (ps: seq<seq<seq<T>>>) {
    var p := LoopParts(groups, chunkSize);
    if |p.pending| > 0 then p.yielded + [p.pending] else p.yielded
  }

  /** A loop state and a partition describe the same batches. */
  ghost predicate Agree<T>(s: State<T>, p: Partition<T>) {
    && |s.yielded| == |p.yielded|
    && (forall i :: 0 <= i < |s.yielded| ==> s.yielded[i] == Flatten(p.yielded[i]))
    && s.pending == Flatten(p.pending)
  }

  /** One step of each loop keeps them in agreement. */
  lemma LemmaStepPartsAgree<T>(s: State<T>, p: Partition<T>, lines: seq<T>, chunkSize: nat)
    requires Agree(s, p)
    ensures Agree(Step(s, lines, chunkSize), StepParts(p, lines, chunkSize))
  {
    FlattenSnoc(p.pending, lines);
    assert Flatten([lines]) == lines by { FlattenSnoc([], lines); }
  }

  /** The two loops agree: each batch is the concatenation of its groups. */
  lemma {:induction false} LemmaLoopPartsAgree<T>(groups: seq<seq<T>>, chunkSize: nat)
    ensures var s := Loop(groups, chunkSize);
      var p := LoopParts(groups, chunkSize);
      && |s.yielded| == |p.yielded|
      && (forall i :: 0 <= i < |s.yielded| ==> s.yielded[i] == Flatten(p.yielded[i]))
      && s.pending == Flatten(p.pending)
    decreases |groups|
  {
    if |groups| > 0 {
      var init := groups[..|groups| - 1];
      var g := groups[|groups| - 1];
      LemmaLoopPartsAgree(init, chunkSize);
      LemmaStepPartsAgree(Loop(init, chunkSize), LoopParts(init, chunkSize), g, chunkSize);
    }
  }

  predicate NonEmptyGroups<T>(groups: seq<seq<T>>) {
    forall i :: 0 <= i < |groups| ==> |groups[i]| > 0
  }

  lemma LemmaFlattenEmpty<T>(xss: seq<seq<T>>)
    requires NonEmptyGroups(xss)
    ensures Flatten(xss) == [] <==> xss == []
  {
    if |xss| > 0 {
      assert |xss[|xss| - 1]| > 0;
    }
  }

  /** A part holding two or more groups fits the budget. */
  predicate Fits<T>(part: seq<seq<T>>, chunkSize: nat) {
    |part| >= 2 ==> |Flatten(part)| <= chunkSize
  }

  /** `part` was yielded because `next` (the first group of the following
      part) did not fit beside it. */
  predicate Full<T>(part: seq<seq<T>>, next: seq<seq<T>>, chunkSize: nat) {
    |next| > 0 && |Flatten(part)| + |next[0]| > chunkSize
  }

  /** The part yielded after the `i`-th one, or the accumulator. */
  function Next<T>(p: Partition<T>, i: nat): (next: seq<seq<T>>)
    requires i < |p.yielded|
  {
    if i + 1 < |p.yielded| then p.yielded[i + 1] else p.pending
  }

  /** What holds of the partition after every iteration. */
  ghost predicate PartsInvariant<T>(p: Partition<T>, groups: seq<seq<T>>, chunkSize: nat) {
    && Flatten(p.yielded) + p.pending == groups
    && (forall i :: 0 <= i < |p.yielded| ==> Fits(p.yielded[i], chunkSize))
    && Fits(p.pending, chunkSize)
    && (forall i :: 0 <= i < |p.yielded| ==> NonEmptyGroups(p.yielded[i]))
    && NonEmptyGroups(p.pending)
    && (|p.pending| > 0 <==> |groups| > 0)
    && (forall i :: 0 < i < |p.yielded| ==> |p.yielded[i]| > 0)
    && (forall i :: 0 <= i < |p.yielded| ==> Full(p.yielded[i], Next(p, i), chunkSize))
    && (|p.yielded| > 0 && p.yielded[0] == [] <==> |groups| > 0 && |groups[0]| > chunkSize)
  }

  /** After an iteration that yields the accumulator, every yielded part is
      still followed by a group that did not fit beside it. */
  lemma LemmaStepYieldsFull<T>(q: Partition<T>, init: seq<seq<T>>, g: seq<T>, chunkSize: nat)
    requires PartsInvariant(q, init, chunkSize)
    requires |g| > 0
    requires |Flatten(q.pending)| + |g| > chunkSize
    ensures var p := StepParts(q, g, chunkSize);
      forall i :: 0 <= i < |p.yielded| ==> Full(p.yielded[i], Next(p, i), chunkSize)
  {
    var p := StepParts(q, g, chunkSize);
    assert p == Partition(q.yielded + [q.pending], [g]);
    forall i | 0 <= i < |p.yielded|
      ensures Full(p.yielded[i], Next(p, i), chunkSize)
    {
      if i + 1 < |q.yielded| {
        assert p.yielded[i] == q.yielded[i];
        assert Next(p, i) == Next(q, i);
        assert Full(q.yielded[i], Next(q, i), chunkSize);
      } else if i + 1 == |q.yielded| {
        assert p.yielded[i] == q.yielded[i];
        assert Next(p, i) == q.pending == Next(q, i);
        assert Full(q.yielded[i], Next(q, i), chunkSize);
      } else {
        assert p.yielded[i] == q.pending;
        assert Next(p, i) == [g];
      }
    }
  }

  /** After an iteration that yields the accumulator, the parts still cover
      the groups, fit, and hold no empty group. */
  lemma LemmaStepYieldsCover<T>(q: Partition<T>, init: seq<seq<T>>, g: seq<T>, chunkSize: nat)
    requires PartsInvariant(q, init, chunkSize)
    requires |g| > 0
    requires |Flatten(q.pending)| + |g| > chunkSize
    ensures var p := StepParts(q, g, chunkSize);
      && Flatten(p.yielded) + p.pending == init + [g]
      && (forall i :: 0 <= i < |p.yielded| ==> Fits(p.yielded[i], chunkSize))
      && Fits(p.pending, chunkSize)
      && (forall i :: 0 <= i < |p.yielded| ==> NonEmptyGroups(p.yielded[i]))
      && NonEmptyGroups(p.pending)
  {
    var p := StepParts(q, g, chunkSize);
    assert p == Partition(q.yielded + [q.pending], [g]);
    FlattenSnoc(q.yielded, q.pending);
  }

  /** After an iteration that yields the accumulator, only the first part can
      be empty, and it is exactly when the first group was over budget. */
  lemma LemmaStepYieldsFirst<T>(q: Partition<T>, init: seq<seq<T>>, g: seq<T>, chunkSize: nat)
    requires PartsInvariant(q, init, chunkSize)
    requires |g| > 0
    requires |Flatten(q.pending)| + |g| > chunkSize
    ensures var p := StepParts(q, g, chunkSize);
      && (|p.pending| > 0 <==> |init + [g]| > 0)
      && (forall i :: 0 < i < |p.yielded| ==> |p.yielded[i]| > 0)
      && (|p.yielded| > 0 && p.yielded[0] == [] <==> |init + [g]| > 0 && |(init + [g])[0]| > chunkSize)
  {
    var p := StepParts(q, g, chunkSize);
    assert p == Partition(q.yielded + [q.pending], [g]);
    if |init| == 0 {
      assert p.yielded == [[]];
    } else {
      assert init[0] == (init + [g])[0];
      assert |q.pending| > 0;
      if |q.yielded| > 0 {
        assert p.yielded[0] == q.yielded[0];
      } else {
        assert p.yielded[0] == q.pending;
      }
    }
  }

  /** An iteration that yields the accumulator keeps the invariant. */
  lemma LemmaStepYields<T>(q: Partition<T>, init: seq<seq<T>>, g: seq<T>, chunkSize: nat)
    requires PartsInvariant(q, init, chunkSize)
    requires |g| > 0
    requires |Flatten(q.pending)| + |g| > chunkSize
    ensures PartsInvariant(StepParts(q, g, chunkSize), init + [g], chunkSize)
  {
    LemmaStepYieldsCover(q, init, g, chunkSize);
    LemmaStepYieldsFirst(q, init, g, chunkSize);
    LemmaStepYieldsFull(q, init, g, chunkSize);
  }

  /** An iteration that only extends the accumulator keeps the invariant. */
  lemma LemmaStepExtends<T>(q: Partition<T>, init: seq<seq<T>>, g: seq<T>, chunkSize: nat)
    requires PartsInvariant(q, init, chunkSize)
    requires |g| > 0
    requires |Flatten(q.pending)| + |g| <= chunkSize
    ensures PartsInvariant(StepParts(q, g, chunkSize), init + [g], chunkSize)
  {
    var p := StepParts(q, g, chunkSize);
    var groups := init + [g];
    assert p == Partition(q.yielded, q.pending + [g]);
    FlattenSnoc(q.pending, g);
    assert Flatten(p.yielded) + p.pending == groups;
    assert NonEmptyGroups(q.pending + [g]);
    if |init| > 0 {
      assert init[0] == groups[0];
    }
    forall i | 0 <= i < |p.yielded|
      ensures Full(p.yielded[i], Next(p, i), chunkSize)
    {
      assert Full(q.yielded[i], Next(q, i), chunkSize);
      if i + 1 == |p.yielded| {
        assert Next(p, i)[0] == Next(q, i)[0];
      } else {
        assert Next(p, i) == Next(q, i);
      }
    }
  }

  lemma {:induction false} LemmaPartsInvariant<T>(groups: seq<seq<T>>, chunkSize: nat)
    requires NonEmptyGroups(groups)
    ensures PartsInvariant(LoopParts(groups, chunkSize), groups, chunkSize)
    decreases |groups|
  {
    if |groups| > 0 {
      var init := groups[..|groups| - 1];
      var g := groups[|groups| - 1];
      assert groups == init + [g];
      LemmaPartsInvariant(init, chunkSize);
      var q := LoopParts(init, chunkSize);
      if |Flatten(q.pending)| + |g| > chunkSize {
        LemmaStepYields(q, init, g, chunkSize);
      } else {
        LemmaStepExtends(q, init, g, chunkSize);
      }
    }
  }

  /** No group is split: the parts, concatenated, are the groups, and each
      batch is the concatenation of its part. */
  lemma LemmaWholeGroups<T>(groups: seq<seq<T>>, chunkSize: nat)
    requires NonEmptyGroups(groups)
    ensures var bs := Batches(groups, chunkSize);
      var ps := BatchParts(groups, chunkSize);
      && |bs| == |ps|
      && (forall i :: 0 <= i < |bs| ==> bs[i] == Flatten(ps[i]))
      && Flatten(ps) == groups
  {
    LemmaLoopPartsAgree(groups, chunkSize);
    LemmaPartsInvariant(groups, chunkSize);
    var p := LoopParts(groups, chunkSize);
    LemmaFlattenEmpty(p.pending);
    if |p.pending| > 0 {
      FlattenSnoc(p.yielded, p.pending);
    } else {
      assert Flatten(p.yielded) == groups;
    }
  }

  /** Size bound: a batch longer than `chunkSize` is a single group. */
  lemma LemmaBatchBound<T>(groups: seq<seq<T>>, chunkSize: nat)
    requires NonEmptyGroups(groups)
    ensures var bs := Batches(groups, chunkSize);
      var ps := BatchParts(groups, chunkSize);
      |bs| == |ps| && forall i :: 0 <= i < |bs| ==> |bs[i]| <= chunkSize || |ps[i]| == 1
  {
    LemmaWholeGroups(groups, chunkSize);
    LemmaPartsInvariant(groups, chunkSize);
    var ps := BatchParts(groups, chunkSize);
    assert forall i :: 0 <= i < |ps| ==> Fits(ps[i], chunkSize);
  }

  /** The `i`-th yielded part of the loop was followed by a group that did
      not fit beside it. */
  lemma LemmaLoopPartFull<T>(groups: seq<seq<T>>, chunkSize: nat, i: nat)
    requires NonEmptyGroups(groups)
    requires i < |LoopParts(groups, chunkSize).yielded|
    ensures Full(LoopParts(groups, chunkSize).yielded[i], Next(LoopParts(groups, chunkSize), i), chunkSize)
  {
    LemmaPartsInvariant(groups, chunkSize);
    var p := LoopParts(groups, chunkSize);
    assert PartsInvariant(p, groups, chunkSize);
    assert Full(p.yielded[i], Next(p, i), chunkSize);
  }

  /** The part after the `i`-th one starts with a group that did not fit
      beside the `i`-th batch. */
  lemma LemmaPartsFullAt<T>(groups: seq<seq<T>>, chunkSize: nat, i: nat)
    requires NonEmptyGroups(groups)
    requires i + 1 < |BatchParts(groups, chunkSize)| && i + 1 < |Batches(groups, chunkSize)|
    ensures var ps := BatchParts(groups, chunkSize);
      |ps[i + 1]| > 0 && |Batches(groups, chunkSize)[i]| + |ps[i + 1][0]| > chunkSize
  {
    var p := LoopParts(groups, chunkSize);
    var ps := BatchParts(groups, chunkSize);
    assert ps[i] == p.yielded[i];
    assert ps[i + 1] == Next(p, i);
    LemmaLoopPartFull(groups, chunkSize, i);
    LemmaWholeGroups(groups, chunkSize);
  }

  lemma LemmaBatchCount<T>(groups: seq<seq<T>>, chunkSize: nat)
    requires NonEmptyGroups(groups)
    ensures |Batches(groups, chunkSize)| == |BatchParts(groups, chunkSize)|
  {
    LemmaWholeGroups(groups, chunkSize);
  }

  /** A batch is yielded only when the first group of the next batch would
      not have fit beside it. */
  lemma LemmaFlushOnlyWhenFull<T>(groups: seq<seq<T>>, chunkSize: nat)
    requires NonEmptyGroups(groups)
    ensures var bs := Batches(groups, chunkSize);
      var ps := BatchParts(groups, chunkSize);
      |bs| == |ps| && forall j :: 0 < j < |bs| ==> |ps[j]| > 0 && |bs[j - 1]| + |ps[j][0]| > chunkSize
  {
    LemmaBatchCount(groups, chunkSize);
    var bs := Batches(groups, chunkSize);
    var ps := BatchParts(groups, chunkSize);
    forall j | 0 < j < |bs|
      ensures |ps[j]| > 0 && |bs[j - 1]| + |ps[j][0]| > chunkSize
    {
      LemmaPartsFullAt(groups, chunkSize, j - 1);
    }
  }

  /** The only empty batch there can be is the first one, yielded at line 87
      when the very first group alone is over the budget; the final flush
      never yields an empty batch. */
  lemma LemmaEmptyBatch<T>(groups: seq<seq<T>>, chunkSize: nat)
    requires NonEmptyGroups(groups)
    ensures var bs := Batches(groups, chunkSize);
      forall i :: 0 <= i < |bs| ==> (bs[i] == [] <==> i == 0 && |groups[0]| > chunkSize)
    ensures |groups| > 0 && |groups[0]| > chunkSize ==> |Batches(groups, chunkSize)| > 0
  {
    LemmaWholeGroups(groups, chunkSize);
    LemmaPartsInvariant(groups, chunkSize);
    var p := LoopParts(groups, chunkSize);
    var bs := Batches(groups, chunkSize);
    var ps := BatchParts(groups, chunkSize);
    forall i | 0 <= i < |bs|
      ensures bs[i] == [] <==> i == 0 && |groups[0]| > chunkSize
    {
      if i < |p.yielded| {
        assert ps[i] == p.yielded[i];
      } else {
        assert ps[i] == p.pending;
      }
      LemmaFlattenEmpty(ps[i]);
    }
  }

  /** The `j`-th pair of a sequence read two elements at a time. */
  function PairAt<T>(xs: seq<T>, j: nat): (pair: seq<T>)
    requires 2 * j + 2 <= |xs|
  {
    xs[2 * j..2 * j + 2]
  }

  /** Concatenating two-element groups puts group `j` at offset `2 * j`. */
  lemma {:induction false} LemmaFlattenPairs<T>(xss: seq<seq<T>>)
    requires forall i :: 0 <= i < |xss| ==> |xss[i]| == 2
    ensures |Flatten(xss)| == 2 * |xss|
    ensures forall j :: 0 <= j < |xss| ==> PairAt(Flatten(xss), j) == xss[j]
    decreases |xss|
  {
    if |xss| > 0 {
      var init := xss[..|xss| - 1];
      LemmaFlattenPairs(init);
      var f := Flatten(xss);
      assert f == Flatten(init) + xss[|xss| - 1];
      forall j | 0 <= j < |xss|
        ensures PairAt(f, j) == xss[j]
      {
        if j < |init| {
          assert PairAt(f, j) == PairAt(Flatten(init), j);
          assert init[j] == xss[j];
        }
      }
    }
  }

  /** Every element of every inner sequence appears in the concatenation. */
  lemma {:induction false} LemmaInFlatten<T>(xss: seq<seq<T>>, i: nat, j: nat)
    requires i < |xss| && j < |xss[i]|
    ensures xss[i][j] in Flatten(xss)
    decreases |xss|
  {
    var init := xss[..|xss| - 1];
    assert Flatten(xss) == Flatten(init) + xss[|xss| - 1];
    if i < |init| {
      assert init[i] == xss[i];
      LemmaInFlatten(init, i, j);
    } else {
      assert Flatten(xss)[|Flatten(init)| + j] == xss[i][j];
    }
  }

  /** A part made of pairs taken from `groups` is a run of whole pairs. */
  lemma LemmaPairPart<T>(groups: seq<seq<T>>, ps: seq<seq<seq<T>>>, i: nat)
    requires forall k :: 0 <= k < |groups| ==> |groups[k]| == 2
    requires Flatten(ps) == groups && i < |ps|
    ensures |Flatten(ps[i])| % 2 == 0
    ensures forall j :: 0 <= j < |Flatten(ps[i])| / 2 ==> PairAt(Flatten(ps[i]), j) in groups
  {
    forall j | 0 <= j < |ps[i]| ensures ps[i][j] in groups {
      LemmaInFlatten(ps, i, j);
    }
    LemmaFlattenPairs(ps[i]);
  }

  /** When every group is a pair, every batch is a run of whole pairs. */
  lemma LemmaPairBatches<T>(groups: seq<seq<T>>, chunkSize: nat)
    requires forall k :: 0 <= k < |groups| ==> |groups[k]| == 2
    ensures var bs := Batches(groups, chunkSize);
      forall i :: 0 <= i < |bs| ==>
        && |bs[i]| % 2 == 0
        && forall j :: 0 <= j < |bs[i]| / 2 ==> PairAt(bs[i], j) in groups
  {
    LemmaWholeGroups(groups, chunkSize);
    var bs := Batches(groups, chunkSize);
    var ps := BatchParts(groups, chunkSize);
    forall i | 0 <= i < |bs|
      ensures |bs[i]| % 2 == 0
      ensures forall j :: 0 <= j < |bs[i]| / 2 ==> PairAt(bs[i], j) in groups
    {
      assert bs[i] == Flatten(ps[i]);
      LemmaPairPart(groups, ps, i);
    }
  }
}

=== FILE: common.dfy ===
/** Result and option types shared by the importer and exporter models, and the
    Python exception kinds the modelled code can raise. */
module Common {

  /** Python's `None` (for optional arguments) or a present value. */
  datatype Option<+T> = None | Some(value: T)

  /** A computation that either produced a value or raised one of the
      exceptions in `Error`. Usable with `:-`. */
  datatype Result<+T> = Ok(value: T) | Err(error: Error) {

    predicate IsFailure() {
      Err?
    }

    function PropagateFailure<U>(): (r: Result<U>)
      requires Err?
    {
      Err(error)
    }

    function Extract(): (v: T)
      requires Ok?
    {
      value
    }
  }

  /** The exceptions raised on the modelled paths. */
  datatype Error =
    | KeyError(key: string)   // subscripting a dict with a key it does not hold
    | TypeError               // subscripting a list, string, number, bool or None with a string key,
                              // or calling a function with an argument it does not accept
    | AttributeError          // calling `get`/`pop` on something that is not a dict
    | UnsupportedFileType     // the ValueError raised by `read_lines`
}

=== FILE: config.dfy ===
/** The argument checks both `main` functions make before connecting. */
module Config {
  import opened Common
  import opened Text

  /** The ValueErrors `main` raises for argument combinations it refuses. */
  datatype ConfigError =
    | CredentialsMismatch           // "Username and password must be provided together."
    | IdFieldWithoutGeneratedActions
    | CsvWithoutGeneratedActions
    | CaCertWithoutHttps

  /** Why a run stopped early: refused arguments, or an exception raised
      while records were being processed. */
  datatype Failure = Refused(reason: ConfigError) | Raised(error: Error)

  /** The importer arguments the checks look at. */
  datatype ImporterArgs = ImporterArgs(
    filePath: string,
    username: Option<string>,
    password: Option<string>,
    useSsl: bool,
    caCert: Option<string>,
    generateAction: bool,
    idField: Option<string>)

  /** The exporter arguments the checks look at. */
  datatype ExporterArgs = ExporterArgs(
    username: Option<string>,
    password: Option<string>,
    useSsl: bool,
    caCert: Option<string>)

  /** A password is accepted only together with the user name `elastic`. */
  predicate CredentialsAccepted(username: Option<string>, password: Option<string>) {
    password.Some? ==> username == Some("elastic")
  }

  /** The importer's checks, in the order `main` makes them: the first one
      that fails is the error raised. */
  function CheckImporter(args: ImporterArgs): (r: Option<ConfigError>)
    ensures r.None? <==>
      && CredentialsAccepted(args.username, args.password)
      && (args.idField.Some? ==> args.generateAction)
      && (EndsWith(args.filePath, ".csv") ==> args.generateAction)
      && (args.caCert.Some? ==> args.useSsl)
    ensures r == Some(CredentialsMismatch) <==> !CredentialsAccepted(args.username, args.password)
    ensures r == Some(IdFieldWithoutGeneratedActions) <==>
      CredentialsAccepted(args.username, args.password) && args.idField.Some? && !args.generateAction
    ensures r == Some(CsvWithoutGeneratedActions) <==>
      && CredentialsAccepted(args.username, args.password)
      && args.idField.None? && EndsWith(args.filePath, ".csv") && !args.generateAction
    ensures r == Some(CaCertWithoutHttps) ==> args.caCert.Some? && !args.useSsl
  {
    if args.username != Some("elastic") && args.password.Some? then Some(CredentialsMismatch)
    else if args.idField.Some? && !args.generateAction then Some(IdFieldWithoutGeneratedActions)
    else if EndsWith(args.filePath, ".csv") && !args.generateAction then Some(CsvWithoutGeneratedActions)
    else if args.caCert.Some? && !args.useSsl then Some(CaCertWithoutHttps)
    else None
  }

  /** The exporter's two checks, in order. */
  function CheckExporter(args: ExporterArgs): (r: Option<ConfigError>)
    ensures r.None? <==> CredentialsAccepted(args.username, args.password) && (args.caCert.Some? ==> args.useSsl)
    ensures r == Some(CredentialsMismatch) <==> !CredentialsAccepted(args.username, args.password)
    ensures r == Some(CaCertWithoutHttps) <==>
      CredentialsAccepted(args.username, args.password) && args.caCert.Some? && !args.useSsl
  {
    if args.username != Some("elastic") && args.password.Some? then Some(CredentialsMismatch)
    else if args.caCert.Some? && !args.useSsl then Some(CaCertWithoutHttps)
    else None
  }
}

=== FILE: dryrun.dfy ===
/** The dry-run rendering of `process_file` (es-importer.py): instead of a
    bulk request, each batch is printed as a request line naming the bulk
    endpoint, the batch's lines, and an empty line. */
module DryRun {
  import opened Common

  const RequestPrefix: string := "PUT /"
  const BulkSuffix: string := "/_bulk"
  const PipelineParam: string := "?pipeline="

  /** `'PUT /{}/_bulk{}'.format(index, arg)`: the bulk endpoint of the
      index, followed by `?pipeline=<p>` exactly when a pipeline is given. */
  function Header(index: string, pipeline: Option<string>): (h: string)
    ensures var base := RequestPrefix + index + BulkSuffix;
      && |base| <= |h| && h[..|base|] == base
      && (pipeline.None? <==> |h| == |base|)
      && (pipeline.Some? ==> h[|base|..] == PipelineParam + pipeline.value)
  {
    RequestPrefix + index + BulkSuffix + (if pipeline.Some? then PipelineParam + pipeline.value else "")
  }

  /** Reads the pipeline back out of a request line for `index`: `Some(None)`
      for no query string, `Some(Some(p))` for `?pipeline=p`, `None` for a
      line that is not a request line for `index`. */
  function HeaderPipeline(index: string, header: string): (r: Option<Option<string>>) {
    var base := RequestPrefix + index + BulkSuffix;
    if |header| < |base| || header[..|base|] != base then None
    else
      var rest := header[|base|..];
      if rest == "" then Some(None)
      else if |rest| >= |PipelineParam| && rest[..|PipelineParam|] == PipelineParam then Some(Some(rest[|PipelineParam|..]))
      else None
  }

  /** The request line names the index and carries the pipeline exactly when
      one is given: it can be read back. */
  lemma LemmaHeaderRoundTrip(index: string, pipeline: Option<string>)
    ensures HeaderPipeline(index, Header(index, pipeline)) == Some(pipeline)
  {
    var base := RequestPrefix + index + BulkSuffix;
    var h := Header(index, pipeline);
    assert h[..|base|] == base;
    if pipeline.Some? {
      var rest := h[|base|..];
      assert rest == PipelineParam + pipeline.value;
      assert rest[..|PipelineParam|] == PipelineParam;
      assert rest[|PipelineParam|..] == pipeline.value;
    } else {
      assert h == base;
    }
  }

  /** The lines printed for one batch. */
  function Render(index: string, pipeline: Option<string>, batch: seq<string>): (out: seq<string>)
    ensures |out| == |batch| + 2
    ensures out[0] == Header(index, pipeline) && out[|out| - 1] == ""
    ensures out[1..|out| - 1] == batch
  {
    [Header(index, pipeline)] + batch + [""]
  }

  /** The lines printed for all batches, in order. */
  function RenderAll(index: string, pipeline: Option<string>, batches: seq<seq<string>>): (out: seq<string>)
    decreases |batches|
  {
    if |batches| == 0 then [] else Render(index, pipeline, batches[0]) + RenderAll(index, pipeline, batches[1..])
  }

  /** The position of the first empty line, or `|lines|`. */
  function FirstEmpty(lines: seq<string>): (k: nat)
    ensures k <= |lines|
    ensures k < |lines| ==> lines[k] == ""
    ensures forall j :: 0 <= j < k ==> lines[j] != ""
    decreases |lines|
  {
    if |lines| == 0 then 0
    else if lines[0] == "" then 0
    else 1 + FirstEmpty(lines[1..])
  }

  /** Splits printed dry-run output back into batches: each block is the
      request line `header`, body lines, and an empty line. */
  function Parse(header: string, out: seq<string>): (r: Option<seq<seq<string>>>)
    decreases |out|
  {
    if |out| == 0 then Some([])
    else if out[0] != header then None
    else
      var body := out[1..];
      var k := FirstEmpty(body);
      if k == |body| then None
      else
        match Parse(header, body[k + 1..])
        case None => None
        case Some(rest) => Some([body[..k]] + rest)
  }

  predicate NoEmptyLine(batches: seq<seq<string>>) {
    forall i, j :: 0 <= i < |batches| && 0 <= j < |batches[i]| ==> batches[i][j] != ""
  }

  /** Dry-run output loses nothing: when no batch line is empty (a
      serialised JSON value never is), the printed text splits back into
      exactly the batches, in order, each under the same request line. */
  lemma {:induction false} LemmaParseRenderAll(index: string, pipeline: Option<string>, batches: seq<seq<string>>)
    requires NoEmptyLine(batches)
    ensures Parse(Header(index, pipeline), RenderAll(index, pipeline, batches)) == Some(batches)
    decreases |batches|
  {
    if |batches| > 0 {
      LemmaNoEmptyLineSplit(batches);
      LemmaParseRenderAll(index, pipeline, batches[1..]);
      LemmaParseFirst(index, pipeline, batches);
    }
  }

  /** The inductive step: the first block reads back as the first batch. */
  lemma LemmaParseFirst(index: string, pipeline: Option<string>, batches: seq<seq<string>>)
    requires |batches| > 0
    requires forall j :: 0 <= j < |batches[0]| ==> batches[0][j] != ""
    requires Parse(Header(index, pipeline), RenderAll(index, pipeline, batches[1..])) == Some(batches[1..])
    ensures Parse(Header(index, pipeline), RenderAll(index, pipeline, batches)) == Some(batches)
  {
    LemmaRenderAllFirst(index, pipeline, batches);
    LemmaParseBlock(Header(index, pipeline), batches[0], RenderAll(index, pipeline, batches[1..]), batches[1..],
                    RenderAll(index, pipeline, batches));
    assert [batches[0]] + batches[1..] == batches;
  }

  /** The printed text starts with the first batch's block. */
  lemma LemmaRenderAllFirst(index: string, pipeline: Option<string>, batches: seq<seq<string>>)
    requires |batches| > 0
    ensures RenderAll(index, pipeline, batches)
      == [Header(index, pipeline)] + batches[0] + [""] + RenderAll(index, pipeline, batches[1..])
  {
  }

  /** Neither the first batch nor the remaining ones hold an empty line. */
  lemma LemmaNoEmptyLineSplit(batches: seq<seq<string>>)
    requires NoEmptyLine(batches) && |batches| > 0
    ensures forall j :: 0 <= j < |batches[0]| ==> batches[0][j] != ""
    ensures NoEmptyLine(batches[1..])
  {
    forall i, j | 0 <= i < |batches[1..]| && 0 <= j < |batches[1..][i]|
      ensures batches[1..][i][j] != ""
    {
      assert batches[1..][i] == batches[i + 1];
    }
  }

  /** One printed block, request line, body lines and the empty line, is
      read back as its body, ahead of what the rest reads back as. */
  lemma LemmaParseBlock(h: string, b: seq<string>, tail: seq<string>, rest: seq<seq<string>>, out: seq<string>)
    requires forall j :: 0 <= j < |b| ==> b[j] != ""
    requires Parse(h, tail) == Some(rest)
    requires out == [h] + b + [""] + tail
    ensures Parse(h, out) == Some([b] + rest)
  {
    var body := out[1..];
    assert body == b + [""] + tail;
    assert forall j :: 0 <= j < |b| ==> body[j] == b[j];
    LemmaFirstEmptyAt(body, |b|);
    assert body[|b| + 1..] == tail;
    assert body[..|b|] == b;
  }

  lemma {:induction false} LemmaFirstEmptyAt(lines: seq<string>, k: nat)
    requires k < |lines| && lines[k] == ""
    requires forall j :: 0 <= j < k ==> lines[j] != ""
    ensures FirstEmpty(lines) == k
    decreases k
  {
    if k > 0 {
      LemmaFirstEmptyAt(lines[1..], k - 1);
    }
  }

  /** Index `foo`, pipeline `bar`, one line: request line, the line, an empty line. */
  lemma LemmaDryRunExample(line: string)
    ensures Render("foo", Some("bar"), [line]) == ["PUT /foo/_bulk?pipeline=bar", line, ""]
    ensures Render("foo", None, [line]) == ["PUT /foo/_bulk", line, ""]
  {
    var base := RequestPrefix + "foo" + BulkSuffix;
    assert base == "PUT /foo/_bulk";
    assert PipelineParam + "bar" == "?pipeline=bar";
    assert Header("foo", Some("bar")) == "PUT /foo/_bulk" + "?pipeline=bar";
    assert "PUT /foo/_bulk" + "?pipeline=bar" == "PUT /foo/_bulk?pipeline=bar";
    assert Header("foo", None) == "PUT /foo/_bulk";
  }
}

=== FILE: exporter.dfy ===
/** `process_results`, `post_process_document` and `main` of es-exporter.py:
    each search hit becomes at most one output line, in hit order. The
    scrolled search itself, the subprocess and the output file are not
    modelled: the hits are a sequence and the command is a function from its
    input text to its entire output. */
module Exporter {
  import opened Common
  import opened Text
  import opened JsonValues
  import opened Config

  /** How the exporter is configured and what it cannot see into. */
  datatype Exporting = Exporting(
    full: bool,                       // --full
    postProcess: Option<string>,      // --post-process
    dumps: Json -> string,            // json.dumps(doc, ensure_ascii=False), the direct output
    dumpsAscii: Json -> string,       // json.dumps(doc), the text written to the command
    run: (string, string) -> string)  // a command's whole output for a given input

  /** `result if full else result['_source']`. */
  function Select(result: Json, full: bool): (r: Result<Json>)
    ensures full ==> r == Ok(result)
    ensures !full ==> (r.Ok? <==> result.Object? && "_source" in result.fields)
    ensures !full && r.Ok? ==> r.value == result.fields["_source"]
    ensures !full && result.Object? && "_source" !in result.fields ==> r == Err(KeyError("_source"))
  {
    if full then Ok(result)
    else
      match result
      case Object(m) => if "_source" in m then Ok(m["_source"]) else Err(KeyError("_source"))
      case _ => Err(TypeError)
  }

  /** `if post_process:`: a command is run only when one is given and it is
      not the empty string. */
  predicate PostProcessing(postProcess: Option<string>) {
    postProcess.Some? && postProcess.value != ""
  }

  /** `post_process_document`: the command's output for the document's
      serialisation, with surrounding whitespace cut off. */
  function PostProcessDocument(document: Json, command: string, x: Exporting): (out: string)
    ensures Stripped(out)
    ensures var raw := x.run(command, x.dumpsAscii(document));
      exists i, j :: 0 <= i <= j <= |raw| && out == raw[i..j] && AllSpace(raw[..i]) && AllSpace(raw[j..])
  {
    Strip(x.run(command, x.dumpsAscii(document)))
  }

  /** `processed_output` for one hit. */
  function Output(result: Json, x: Exporting): (r: Result<string>)
    ensures r.Ok? <==> Select(result, x.full).Ok?
    ensures r.Ok? && PostProcessing(x.postProcess) ==>
      r.value == PostProcessDocument(Select(result, x.full).value, x.postProcess.value, x)
    ensures r.Ok? && !PostProcessing(x.postProcess) ==> r.value == x.dumps(Select(result, x.full).value)
    ensures r.Err? ==> r.error == Select(result, x.full).error
  {
    var document :- Select(result, x.full);
    if PostProcessing(x.postProcess) then Ok(PostProcessDocument(document, x.postProcess.value, x))
    else Ok(x.dumps(document))
  }

  /** Each hit's output, or the exception it raises, in hit order. */
  function Outputs(results: seq<Json>, x: Exporting): (outs: seq<Result<string>>)
    ensures |outs| == |results|
    ensures forall i :: 0 <= i < |results| ==> outs[i] == Output(results[i], x)
  {
    seq(|results|, i requires 0 <= i < |results| => Output(results[i], x))
  }

  /** How many outputs come before the first exception. */
  function Handled(outs: seq<Result<string>>): (n: nat)
    ensures n <= |outs|
    ensures forall i :: 0 <= i < n ==> outs[i].Ok?
    ensures n < |outs| ==> outs[n].Err?
    decreases |outs|
  {
    if |outs| == 0 || outs[0].Err? then 0 else 1 + Handled(outs[1..])
  }

  /** The lines written, and the exception that ended the run, if any. */
  datatype Exported = Exported(lines: seq<string>, failure: Option<Failure>)

  /** The loop of `process_results`: each output is written when it is not
      empty, up to the first exception. */
  function Emit(outs: seq<Result<string>>): (e: Exported)
    ensures e.failure.None? <==> Handled(outs) == |outs|
    ensures e.failure.Some? ==>
      Handled(outs) < |outs| && e.failure == Some(Raised(outs[Handled(outs)].error))
    ensures |e.lines| <= Handled(outs)
    ensures forall i :: 0 <= i < |e.lines| ==> e.lines[i] != ""
    decreases |outs|
  {
    if |outs| == 0 then Exported([], None)
    else
      match outs[0]
      case Err(error) => Exported([], Some(Raised(error)))
      case Ok(line) =>
        var rest := Emit(outs[1..]);
        var head := if line != "" then [line] else [];
        assert forall i :: 0 <= i < |rest.lines| ==> (head + rest.lines)[|head| + i] == rest.lines[i];
        Exported(head + rest.lines, rest.failure)
  }

  /** `process_results`: the run ends without an exception exactly when
      every hit has what `--full` asks for; otherwise it ends with the first
      hit's lookup error. No more lines are written than there are hits;
      which hit each line comes from is `LemmaFilteredImage`. */
  function ProcessResults(results: seq<Json>, x: Exporting): (e: Exported)
    ensures e.failure.None? <==> forall i :: 0 <= i < |results| ==> Select(results[i], x.full).Ok?
    ensures e.failure.Some? ==> exists n :: (0 <= n < |results| &&
      (forall i :: 0 <= i < n ==> Select(results[i], x.full).Ok?) &&
      Select(results[n], x.full).Err? &&
      e.failure == Some(Raised(Select(results[n], x.full).error)))
    ensures |e.lines| <= |results|
    ensures forall i :: 0 <= i < |e.lines| ==> e.lines[i] != ""
  {
    var outs := Outputs(results, x);
    var e := Emit(outs);
    assert e.failure.Some? ==> outs[Handled(outs)] == Output(results[Handled(outs)], x);
    e
  }

  function Shift(o: seq<nat>): (r: seq<nat>)
    ensures |r| == |o|
    ensures forall i :: 0 <= i < |o| ==> r[i] == o[i] + 1
  {
    seq(|o|, i requires 0 <= i < |o| => o[i] + 1)
  }

  /** For each line written, the position of the output it came from. */
  function Origins(outs: seq<Result<string>>): (o: seq<nat>)
    decreases |outs|
  {
    if |outs| == 0 then []
    else
      match outs[0]
      case Err(_) => []
      case Ok(line) => (if line != "" then [0] else []) + Shift(Origins(outs[1..]))
  }

  /** Every line `Emit` writes is a handled output, in the order of the outputs. */
  lemma {:induction false} LemmaOriginsSound(outs: seq<Result<string>>)
    ensures var e := Emit(outs);
      var o := Origins(outs);
      && |o| == |e.lines|
      && (forall i :: 0 <= i < |o| ==> o[i] < Handled(outs) && outs[o[i]] == Ok(e.lines[i]))
    decreases |outs|
  {
    if |outs| > 0 && outs[0].Ok? {
      var tail := outs[1..];
      LemmaOriginsSound(tail);
      var e := Emit(outs);
      var o := Origins(outs);
      var et := Emit(tail);
      var ot := Origins(tail);
      assert Handled(outs) == 1 + Handled(tail);
      if outs[0].value != "" {
        assert o == [0] + Shift(ot);
        assert e.lines == [outs[0].value] + et.lines;
        forall i | 1 <= i < |o|
          ensures o[i] < Handled(outs) && outs[o[i]] == Ok(e.lines[i])
        {
          assert o[i] == ot[i - 1] + 1 && outs[o[i]] == tail[ot[i - 1]];
        }
      } else {
        assert o == Shift(ot);
        assert e.lines == et.lines;
        forall i | 0 <= i < |o|
          ensures o[i] < Handled(outs) && outs[o[i]] == Ok(e.lines[i])
        {
          assert o[i] == ot[i] + 1 && outs[o[i]] == tail[ot[i]];
        }
      }
    }
  }

  /** No output gives two lines: the origins strictly increase. */
  lemma {:induction false} LemmaOriginsIncreasing(outs: seq<Result<string>>)
    ensures forall i, j :: 0 <= i < j < |Origins(outs)| ==> Origins(outs)[i] < Origins(outs)[j]
    decreases |outs|
  {
    if |outs| > 0 && outs[0].Ok? {
      var ot := Origins(outs[1..]);
      LemmaOriginsIncreasing(outs[1..]);
      var o := Origins(outs);
      var n := if outs[0].value != "" then 1 else 0;
      assert |o| == n + |ot|;
      forall i, j | 0 <= i < j < |o|
        ensures o[i] < o[j]
      {
        assert o[j] == ot[j - n] + 1;
        if i >= n {
          assert o[i] == ot[i - n] + 1;
        } else {
          assert o[i] == 0;
        }
      }
    }
  }

  /** Every handled output that is not empty is written. */
  lemma {:induction false} LemmaOriginsComplete(outs: seq<Result<string>>)
    ensures forall k :: 0 <= k < Handled(outs) && outs[k] != Ok("") ==> k in Origins(outs)
    decreases |outs|
  {
    if |outs| > 0 && outs[0].Ok? {
      var tail := outs[1..];
      LemmaOriginsComplete(tail);
      var o := Origins(outs);
      var ot := Origins(tail);
      var head: seq<nat> := if outs[0].value != "" then [0] else [];
      assert o == head + Shift(ot);
      assert Handled(outs) == 1 + Handled(tail);
      forall k | 0 <= k < Handled(outs) && outs[k] != Ok("")
        ensures k in o
      {
        if k > 0 {
          assert tail[k - 1] == outs[k];
          var t :| 0 <= t < |ot| && ot[t] == k - 1;
          assert o[|head| + t] == k;
        } else {
          assert o[0] == 0;
        }
      }
    }
  }

  /** The exporter's output is the filtered image of the hits: every line is
      the output of one hit before the first exception, in hit order, and
      every such hit with a non-empty output gives its line. */
  lemma LemmaFilteredImage(results: seq<Json>, x: Exporting)
    ensures var e := ProcessResults(results, x);
      var outs := Outputs(results, x);
      var o := Origins(outs);
      && |o| == |e.lines|
      && (forall i :: 0 <= i < |o| ==> o[i] < Handled(outs) && Output(results[o[i]], x) == Ok(e.lines[i]))
      && (forall i, j :: 0 <= i < j < |o| ==> o[i] < o[j])
      && (forall k :: 0 <= k < Handled(outs) && Output(results[k], x) != Ok("") ==> k in o)
  {
    LemmaOriginsSound(Outputs(results, x));
    LemmaOriginsIncreasing(Outputs(results, x));
    LemmaOriginsComplete(Outputs(results, x));
  }

  /** With a command, every line written is the command's output with no
      whitespace left at either end. */
  lemma LemmaPostProcessedLinesTrimmed(results: seq<Json>, x: Exporting)
    requires PostProcessing(x.postProcess)
    ensures forall i :: 0 <= i < |ProcessResults(results, x).lines| ==> Stripped(ProcessResults(results, x).lines[i])
  {
    LemmaFilteredImage(results, x);
  }

  /** A command whose output is only whitespace drops every document. */
  lemma LemmaBlankFilterDropsAll(results: seq<Json>, x: Exporting)
    requires PostProcessing(x.postProcess)
    requires forall s :: AllSpace(x.run(x.postProcess.value, s))
    ensures ProcessResults(results, x).lines == []
  {
    var e := ProcessResults(results, x);
    LemmaFilteredImage(results, x);
    if |e.lines| > 0 {
      var o := Origins(Outputs(results, x));
      var d := Select(results[o[0]], x.full).value;
      LemmaStripAllSpace(x.run(x.postProcess.value, x.dumpsAscii(d)));
      assert false;
    }
  }

  /** When no handled output is empty, `Emit` writes them all, one line each. */
  lemma {:induction false} LemmaEmitEvery(outs: seq<Result<string>>)
    requires forall i :: 0 <= i < |outs| ==> outs[i] != Ok("")
    ensures var e := Emit(outs);
      |e.lines| == Handled(outs) && forall i :: 0 <= i < |e.lines| ==> outs[i] == Ok(e.lines[i])
    decreases |outs|
  {
    if |outs| > 0 && outs[0].Ok? {
      assert forall i :: 0 <= i < |outs[1..]| ==> outs[1..][i] == outs[i + 1];
      LemmaEmitEvery(outs[1..]);
      var e := Emit(outs);
      var et := Emit(outs[1..]);
      assert e.lines == [outs[0].value] + et.lines;
      forall i | 1 <= i < |e.lines| ensures outs[i] == Ok(e.lines[i]) {
        assert e.lines[i] == et.lines[i - 1];
      }
    }
  }

  /** Without a command, every hit before the first exception gives exactly
      its serialisation, one line per hit, in order (`json.dumps` never
      returns an empty string). */
  lemma LemmaDirectOutput(results: seq<Json>, x: Exporting)
    requires !PostProcessing(x.postProcess)
    requires forall j :: x.dumps(j) != ""
    ensures var e := ProcessResults(results, x);
      && |e.lines| == Handled(Outputs(results, x))
      && forall i :: 0 <= i < |e.lines| ==> e.lines[i] == x.dumps(Select(results[i], x.full).value)
  {
    var outs := Outputs(results, x);
    LemmaEmitEvery(outs);
  }

  /** The command copies its input to its output. */
  ghost predicate CopiesInput(x: Exporting)
    requires PostProcessing(x.postProcess)
  {
    forall s :: x.run(x.postProcess.value, s) == s
  }

  /** The document's direct serialisation has no surrounding whitespace (true
      of `json.dumps`) and agrees with the ASCII-escaped one the command is fed
      (true of documents with only ASCII text). */
  predicate SameEitherWay(x: Exporting, document: Json) {
    Stripped(x.dumps(document)) && x.dumpsAscii(document) == x.dumps(document)
  }

  /** A copying command hands back the direct serialisation of a document
      that reads the same either way. */
  lemma LemmaCopiedDocument(document: Json, x: Exporting)
    requires PostProcessing(x.postProcess) && CopiesInput(x) && SameEitherWay(x, document)
    ensures PostProcessDocument(document, x.postProcess.value, x) == x.dumps(document)
  {
    LemmaStripStripped(x.dumps(document));
  }

  /** One hit through a copying command gives what it gives directly. */
  lemma LemmaIdentityOutput(result: Json, x: Exporting)
    requires PostProcessing(x.postProcess) && CopiesInput(x)
    requires Select(result, x.full).Ok? ==> SameEitherWay(x, Select(result, x.full).value)
    ensures Output(result, x) == Output(result, x.(postProcess := None))
  {
    if Select(result, x.full).Ok? {
      LemmaCopiedDocument(Select(result, x.full).value, x);
    }
  }

  /** A command that copies its input to its output changes nothing when
      every document reads the same either way. */
  lemma LemmaIdentityFilter(results: seq<Json>, x: Exporting)
    requires PostProcessing(x.postProcess) && CopiesInput(x)
    requires forall i :: 0 <= i < |results| && Select(results[i], x.full).Ok? ==>
      SameEitherWay(x, Select(results[i], x.full).value)
    ensures ProcessResults(results, x) == ProcessResults(results, x.(postProcess := None))
  {
    var y := x.(postProcess := None);
    forall i | 0 <= i < |results| ensures Outputs(results, x)[i] == Outputs(results, y)[i] {
      LemmaIdentityOutput(results[i], x);
    }
    assert Outputs(results, x) == Outputs(results, y);
  }

  /** The exporter's `main`: the argument checks, then `process_results`. */
  function Export(args: ExporterArgs, results: seq<Json>, x: Exporting): (e: Exported)
    ensures e.failure.None? ==> CredentialsAccepted(args.username, args.password) && (args.caCert.Some? ==> args.useSsl)
    ensures (e.failure.Some? && e.failure.value.Refused?) <==> CheckExporter(args).Some?
    ensures e.failure.Some? && e.failure.value.Refused? ==> e.lines == [] && e.failure.value.reason == CheckExporter(args).value
    ensures CheckExporter(args).None? ==> e == ProcessResults(results, x)
  {
    match CheckExporter(args)
    case Some(reason) => Exported([], Some(Refused(reason)))
    case None => ProcessResults(results, x)
  }
}

=== FILE: filetypes.dfy ===
/** Choosing how an input path is read (`read_lines` and the reader choice in
    `process_stream`), and the line stream `read_lines` yields. The bytes on
    disk, decompression and CSV parsing are not modelled: the raw lines a
    reader would yield are a parameter. */
module FileTypes {
  import opened Common
  import opened Text

  datatype Compression = Gzip | Bz2 | Zip | Xz

  /** The readers the importer can open a path with. */
  datatype Reader =
    | StdinLines               // the path `-`
    | PlainLines               // `.json` / `.jsonl`
    | Decompressed(kind: Compression)
    | CsvRows                  // `.csv`, read by `read_csv` instead of `read_lines`

  /** `file_path[file_path.rfind('.'):].lower()`. */
  function Extension(path: string): (ext: string)
    ensures '.' in path ==> |ext| > 0 && ext[0] == '.' && '.' !in ext[1..]
    ensures '.' !in path ==> |ext| <= 1 && (|path| > 0 ==> ext == [LowerChar(path[|path| - 1])])
  {
    var i := RFind(path, '.');
    var suffix := SliceFrom(path, i);
    var ext := Lower(suffix);
    if i >= 0 then
      assert suffix[0] == '.';
      assert forall k :: 1 <= k < |suffix| ==> suffix[k] == path[i + k];
      assert forall k :: 0 <= k < |ext| - 1 ==> ext[1..][k] == LowerChar(suffix[k + 1]);
      ext
    else
      ext
  }

  /** The reader `read_lines` picks for an extension, or the ValueError. */
  function ReaderFor(ext: string): (r: Result<Reader>)
    ensures r.Ok? <==> ext == ".json" || ext == ".jsonl" || ext == ".gz" || ext == ".bz2" || ext == ".zip" || ext == ".xz"
    ensures r == Ok(PlainLines) <==> ext == ".json" || ext == ".jsonl"
    ensures r == Ok(Decompressed(Gzip)) <==> ext == ".gz"
    ensures r == Ok(Decompressed(Bz2)) <==> ext == ".bz2"
    ensures r == Ok(Decompressed(Zip)) <==> ext == ".zip"
    ensures r == Ok(Decompressed(Xz)) <==> ext == ".xz"
    ensures r.Err? ==> r.error == UnsupportedFileType
  {
    if ext == ".json" || ext == ".jsonl" then Ok(PlainLines)
    else if ext == ".gz" then Ok(Decompressed(Gzip))
    else if ext == ".bz2" then Ok(Decompressed(Bz2))
    else if ext == ".zip" then Ok(Decompressed(Zip))
    else if ext == ".xz" then Ok(Decompressed(Xz))
    else Err(UnsupportedFileType)
  }

  /** `read_lines`'s dispatch, with standard input (`-`) always read as
      plain lines and never falling through to the extension test. */
  function LineReader(path: string): (r: Result<Reader>)
    ensures r.Ok? ==> r.value != CsvRows
    ensures path == "-" <==> r == Ok(StdinLines)
  {
    if path == "-" then Ok(StdinLines) else ReaderFor(Extension(path))
  }

  /** `process_stream` reads a path ending (case-sensitively) in `.csv` with
      `read_csv`, and everything else through `read_lines`. */
  function SelectReader(path: string): (r: Result<Reader>)
    ensures r == Ok(CsvRows) <==> EndsWith(path, ".csv")
    ensures !EndsWith(path, ".csv") ==> r == LineReader(path)
  {
    if EndsWith(path, ".csv") then Ok(CsvRows) else LineReader(path)
  }

  /** The extension of `base.ext` is `.ext` lower-cased whatever the base
      holds, as long as `ext` itself has no dot. */
  lemma LemmaExtensionOfName(base: string, ext: string)
    requires '.' !in ext
    ensures Extension(base + "." + ext) == Lower("." + ext)
  {
    var path := base + "." + ext;
    var i := RFind(path, '.');
    assert path[|base|] == '.';
    assert forall k :: |base| < k < |path| ==> path[k] == ext[k - |base| - 1];
    assert i == |base|;
    assert path[i..] == "." + ext;
  }

  /** A path with no dot at all (other than `-`) is always rejected, even
      when it spells a supported extension without the dot: `rfind` returns
      -1 and `path[-1:]` is only the last character. */
  lemma LemmaNoDotRejected(path: string)
    requires '.' !in path && path != "-"
    ensures LineReader(path) == Err(UnsupportedFileType)
  {
    var ext := Extension(path);
    assert |ext| <= 1;
  }

  /** The extension test ignores case: `X.GZ` is read as gzip. */
  lemma LemmaUpperCaseGzip(base: string)
    ensures LineReader(base + ".GZ") == Ok(Decompressed(Gzip))
  {
    LemmaExtensionOfName(base, "GZ");
    assert base + ".GZ" == base + "." + "GZ";
    assert Lower(".GZ") == ".gz";
  }

  /** The `.csv` test does not: `X.CSV` is not read as CSV, and its
      lower-cased extension `.csv` is not one `read_lines` accepts. */
  lemma LemmaUpperCaseCsvRejected(base: string)
    ensures SelectReader(base + ".CSV") == Err(UnsupportedFileType)
  {
    var path := base + ".CSV";
    LemmaUpperCaseCsvExtension(base);
    assert !EndsWith(path, ".csv") by {
      assert path[|path| - 4..] == ".CSV";
      assert ".CSV"[1] != ".csv"[1];
    }
    assert |path| != |"-"|;
  }

  lemma LemmaUpperCaseCsvExtension(base: string)
    ensures Extension(base + ".CSV") == ".csv"
  {
    LemmaExtensionOfName(base, "CSV");
    assert base + ".CSV" == base + "." + "CSV";
    assert Lower(".CSV") == ".csv";
  }

  /** What a reader yielded before it stopped, and the exception it stopped
      with, if any. */
  datatype LineStream = LineStream(lines: seq<string>, failure: Option<Error>)

  function StripAll(raw: seq<string>): (r: seq<string>)
    ensures |r| == |raw|
    ensures forall i :: 0 <= i < |raw| ==> r[i] == Strip(raw[i])
  {
    seq(|raw|, i requires 0 <= i < |raw| => Strip(raw[i]))
  }

  /** `read_lines(path, ...)` as intended: standard input and every
      supported extension are read, and the stdin branch is kept apart from
      the extension dispatch. `raw` is what the chosen source yields line by
      line. */
  function ReadLines(path: string, raw: seq<string>): (r: LineStream)
    ensures r.failure.None? <==> LineReader(path).Ok?
    ensures r.failure.Some? ==> r.lines == [] && r.failure == Some(UnsupportedFileType)
    ensures r.failure.None? ==> |r.lines| == |raw|
    ensures r.failure.None? ==> forall i :: 0 <= i < |raw| ==> Stripped(r.lines[i]) && r.lines[i] == Strip(raw[i])
  {
    match LineReader(path)
    case Ok(_) => LineStream(StripAll(raw), None)
    case Err(e) => LineStream([], Some(e))
  }

  /** Whether `read_lines` as written fails on a path before yielding
      anything, although the path is one it means to read: `-` hands
      `aiofiles.open` the function `sys.stdin.readline` instead of a file
      name, and `.zip` passes `'rt'` and `encoding=` to `zipfile.ZipFile`,
      which accepts neither. Both raise a TypeError. */
  predicate OpenFails(path: string) {
    path == "-" || Extension(path) == ".zip"
  }

  /** `read_lines` exactly as written. The `-` branch would also fall
      through to the extension test (an `if`, not an `elif`), but its
      TypeError comes first, so that fall-through is never reached. */
  function ReadLinesAsWritten(path: string, raw: seq<string>): (r: LineStream)
    ensures OpenFails(path) ==> r == LineStream([], Some(TypeError))
    ensures r != ReadLines(path, raw) <==> OpenFails(path)
    ensures r.failure.None? ==> r == ReadLines(path, raw)
  {
    if OpenFails(path) then LineStream([], Some(TypeError))
    else ReadLines(path, raw)
  }

  /** Standard input as written: nothing is read and a TypeError is raised,
      where the intended reader yields every stdin line, stripped. */
  lemma LemmaStdinRejected(raw: seq<string>)
    ensures ReadLinesAsWritten("-", raw) == LineStream([], Some(TypeError))
    ensures ReadLines("-", raw) == LineStream(StripAll(raw), None)
  {
  }

  /** A `.zip` path as written: nothing is read and a TypeError is raised,
      where the intended reader yields the archive's lines, stripped. */
  lemma LemmaZipRejected(base: string, raw: seq<string>)
    ensures ReadLinesAsWritten(base + ".zip", raw) == LineStream([], Some(TypeError))
    ensures ReadLines(base + ".zip", raw) == LineStream(StripAll(raw), None)
  {
    LemmaExtensionOfName(base, "zip");
    assert base + ".zip" == base + "." + "zip";
    assert Lower(".zip") == ".zip";
    assert |base + ".zip"| != |"-"|;
  }
}

=== FILE: importer.dfy ===
/** `process_file` and `main` of es-importer.py put together: records become
    line groups, groups become batches, and each batch is either sent as one
    bulk request or, in a dry run, printed. */
module Importer {
  import opened Common
  import opened JsonValues
  import opened Actions
  import opened Batcher
  import opened DryRun
  import opened FileTypes
  import opened Config

  /** One `es.bulk(body=..., index=..., pipeline=...)` call. `send_data`
      parses every serialised line back, so the body is the batch's values. */
  datatype BulkRequest = BulkRequest(index: string, pipeline: Option<string>, body: seq<Json>)

  /** What an import run did: the lines printed, the requests sent, and the
      failure that ended it, if any. */
  datatype Run = Run(printed: seq<string>, requests: seq<BulkRequest>, failure: Option<Failure>)

  /** The batches `process_file` is handed, and the exception that ended the
      stream, if any. */
  datatype Dispatched = Dispatched(batches: seq<seq<Json>>, failure: Option<Error>)

  /** `process_data(process_stream(...), chunk_size)` as consumed by
      `process_file`: when a record raises, the batches yielded before it
      have already been handed over, and the final flush never happens. */
  function DispatchedBatches(records: seq<Json>, mode: Mode, chunkSize: nat): (d: Dispatched)
    ensures d.failure == ProcessStream(records, mode).failure
    ensures d.batches <= Batches(ProcessStream(records, mode).groups, chunkSize)
    ensures d.failure.None? ==> d.batches == Batches(ProcessStream(records, mode).groups, chunkSize)
    ensures d.failure.None? ==> Flatten(d.batches) == Flatten(ProcessStream(records, mode).groups)
    ensures var groups := ProcessStream(records, mode).groups;
      d.failure.Some? && |groups| > 0 ==> |d.batches| + 1 == |Batches(groups, chunkSize)|
    ensures var groups := ProcessStream(records, mode).groups;
      d.failure.Some? ==> Flatten(d.batches) + Loop(groups, chunkSize).pending == Flatten(groups)
  {
    var p := ProcessStream(records, mode);
    LemmaBatchesKeepLines(p.groups, chunkSize);
    LemmaLoopKeepsLines(p.groups, chunkSize);
    LemmaGroupsNonEmpty(records, mode);
    if p.failure.Some? then Dispatched(Loop(p.groups, chunkSize).yielded, p.failure)
    else Dispatched(Batches(p.groups, chunkSize), None)
  }

  /** Every record that succeeds gives at least one line. */
  lemma LemmaGroupsNonEmpty(records: seq<Json>, mode: Mode)
    ensures var groups := ProcessStream(records, mode).groups;
      forall i :: 0 <= i < |groups| ==> |groups[i]| > 0
  {
    var p := ProcessStream(records, mode);
    forall i | 0 <= i < |p.groups|
      ensures |p.groups[i]| > 0
    {
      assert ProcessRecord(records[i], mode) == Ok(p.groups[i]);
    }
  }

  /** The serialised lines of one batch (`json.dumps` is the parameter). */
  function Serialise(batch: seq<Json>, dumps: Json -> string): (lines: seq<string>)
    ensures |lines| == |batch|
    ensures forall i :: 0 <= i < |batch| ==> lines[i] == dumps(batch[i])
  {
    seq(|batch|, i requires 0 <= i < |batch| => dumps(batch[i]))
  }

  function SerialiseAll(batches: seq<seq<Json>>, dumps: Json -> string): (r: seq<seq<string>>)
    ensures |r| == |batches|
    ensures forall i :: 0 <= i < |batches| ==> r[i] == Serialise(batches[i], dumps)
  {
    seq(|batches|, i requires 0 <= i < |batches| => Serialise(batches[i], dumps))
  }

  function Requests(index: string, pipeline: Option<string>, batches: seq<seq<Json>>): (r: seq<BulkRequest>)
    ensures |r| == |batches|
    ensures forall i :: 0 <= i < |batches| ==> r[i] == BulkRequest(index, pipeline, batches[i])
  {
    seq(|batches|, i requires 0 <= i < |batches| => BulkRequest(index, pipeline, batches[i]))
  }

  /** The bodies of a sequence of bulk requests. */
  function Bodies(requests: seq<BulkRequest>): (bodies: seq<seq<Json>>)
    ensures |bodies| == |requests|
    ensures forall i :: 0 <= i < |requests| ==> bodies[i] == requests[i].body
  {
    seq(|requests|, i requires 0 <= i < |requests| => requests[i].body)
  }

  /** `process_file`: every batch is printed (dry run) or sent as one bulk
      request to the index and pipeline, in order; the exception that ended
      the stream ends the run. */
  function ProcessFile(records: seq<Json>, mode: Mode, index: string, pipeline: Option<string>,
                       chunkSize: nat, dryRun: bool, dumps: Json -> string): (r: Run)
    ensures var d := DispatchedBatches(records, mode, chunkSize);
      && (r.failure.None? <==> d.failure.None?)
      && (d.failure.Some? ==> r.failure == Some(Raised(d.failure.value)))
    ensures dryRun ==> (r.requests == [] &&
      r.printed == RenderAll(index, pipeline, SerialiseAll(DispatchedBatches(records, mode, chunkSize).batches, dumps)))
    ensures !dryRun ==> (r.printed == [] &&
      Bodies(r.requests) == DispatchedBatches(records, mode, chunkSize).batches &&
      forall i :: 0 <= i < |r.requests| ==> r.requests[i].index == index && r.requests[i].pipeline == pipeline)
  {
    var d := DispatchedBatches(records, mode, chunkSize);
    var failure := if d.failure.Some? then Some(Raised(d.failure.value)) else None;
    assert Bodies(Requests(index, pipeline, d.batches)) == d.batches;
    if dryRun then Run(RenderAll(index, pipeline, SerialiseAll(d.batches, dumps)), [], failure)
    else Run([], Requests(index, pipeline, d.batches), failure)
  }

  /** The arguments of the importer's `main`. */
  datatype ImportOptions = ImportOptions(
    args: ImporterArgs, index: string, pipeline: Option<string>, chunkSize: nat, dryRun: bool)

  /** `generate_action` chooses the mode; the id path only matters when
      actions are generated. */
  function ModeOf(args: ImporterArgs): (mode: Mode)
    ensures mode.Generate? <==> args.generateAction
    ensures mode.Generate? ==> mode.idField == args.idField
  {
    if args.generateAction then Generate(args.idField) else PassThrough
  }

  /** `main`: the argument checks, the reader choice (which fails before any
      record is read), then `process_file`. `records` are the values the
      chosen reader decodes. */
  function Import(opts: ImportOptions, records: seq<Json>, dumps: Json -> string): (r: Run)
    ensures CheckImporter(opts.args).Some? ==>
      r == Run([], [], Some(Refused(CheckImporter(opts.args).value)))
    ensures CheckImporter(opts.args).None? && SelectReader(opts.args.filePath).Err? ==>
      r == Run([], [], Some(Raised(UnsupportedFileType)))
    ensures r.failure.None? ==> CheckImporter(opts.args).None? && SelectReader(opts.args.filePath).Ok?
    ensures CheckImporter(opts.args).None? && SelectReader(opts.args.filePath).Ok? ==>
      r == ProcessFile(records, ModeOf(opts.args), opts.index, opts.pipeline, opts.chunkSize, opts.dryRun, dumps)
  {
    match CheckImporter(opts.args)
    case Some(e) => Run([], [], Some(Refused(e)))
    case None =>
      match SelectReader(opts.args.filePath)
      case Err(e) => Run([], [], Some(Raised(e)))
      case Ok(_) =>
        ProcessFile(records, ModeOf(opts.args), opts.index, opts.pipeline, opts.chunkSize, opts.dryRun, dumps)
  }

  /** Generate mode never splits an action from its document: every batch
      handed over (even when a later record raises) has even length, and
      each aligned pair in it is one record's action line and document. */
  lemma LemmaPairsStayTogether(records: seq<Json>, idField: Option<string>, chunkSize: nat)
    ensures var p := ProcessStream(records, Generate(idField));
      var d := DispatchedBatches(records, Generate(idField), chunkSize);
      forall i :: 0 <= i < |d.batches| ==>
        && |d.batches[i]| % 2 == 0
        && forall j :: 0 <= j < |d.batches[i]| / 2 ==>
             PairAt(d.batches[i], j) in p.groups && Normalised(PairAt(d.batches[i], j)[0])
  {
    var p := ProcessStream(records, Generate(idField));
    var d := DispatchedBatches(records, Generate(idField), chunkSize);
    LemmaGeneratePairs(records, idField);
    LemmaPairBatches(p.groups, chunkSize);
    var bs := Batches(p.groups, chunkSize);
    forall i | 0 <= i < |d.batches|
      ensures |d.batches[i]| % 2 == 0
      ensures forall j :: 0 <= j < |d.batches[i]| / 2 ==>
        PairAt(d.batches[i], j) in p.groups && Normalised(PairAt(d.batches[i], j)[0])
    {
      assert d.batches[i] == bs[i];
    }
  }

  /** Generate mode without failure: every record is sent, in input order,
      each directly after its own action line. */
  lemma LemmaEveryRecordSentInOrder(records: seq<Json>, idField: Option<string>, chunkSize: nat)
    requires ProcessStream(records, Generate(idField)).failure.None?
    ensures var lines := Flatten(DispatchedBatches(records, Generate(idField), chunkSize).batches);
      && |lines| == 2 * |records|
      && forall i :: 0 <= i < |records| ==> PairAt(lines, i)[1] == records[i] && Normalised(PairAt(lines, i)[0])
  {
    var groups := ProcessStream(records, Generate(idField)).groups;
    LemmaGeneratedGroups(records, idField);
    LemmaPairsInOrder(Flatten(DispatchedBatches(records, Generate(idField), chunkSize).batches), groups, records);
  }

  /** Lines made of one action-and-record pair per record hold record `i`
      at offset `2 * i + 1`, after its action line. */
  lemma LemmaPairsInOrder(lines: seq<Json>, groups: seq<seq<Json>>, records: seq<Json>)
    requires lines == Flatten(groups) && |groups| == |records|
    requires forall i :: 0 <= i < |records| ==>
      |groups[i]| == 2 && groups[i][1] == records[i] && Normalised(groups[i][0])
    ensures |lines| == 2 * |records|
    ensures forall i :: 0 <= i < |records| ==> PairAt(lines, i)[1] == records[i] && Normalised(PairAt(lines, i)[0])
  {
    LemmaFlattenPairs(groups);
  }

  /** An accepted import in generate mode whose records all succeed sends
      every record, in input order, each directly after its own action
      line, in requests to the index and pipeline asked for. */
  lemma LemmaImportSendsEveryRecord(opts: ImportOptions, records: seq<Json>, dumps: Json -> string)
    requires CheckImporter(opts.args).None? && SelectReader(opts.args.filePath).Ok?
    requires opts.args.generateAction && !opts.dryRun
    requires ProcessStream(records, Generate(opts.args.idField)).failure.None?
    ensures var r := Import(opts, records, dumps);
      && r.failure.None? && r.printed == []
      && (forall i :: 0 <= i < |r.requests| ==> r.requests[i].index == opts.index && r.requests[i].pipeline == opts.pipeline)
    ensures var lines := Flatten(Bodies(Import(opts, records, dumps).requests));
      && |lines| == 2 * |records|
      && forall i :: 0 <= i < |records| ==> PairAt(lines, i)[1] == records[i] && Normalised(PairAt(lines, i)[0])
  {
    var mode := ModeOf(opts.args);
    assert mode == Generate(opts.args.idField);
    LemmaEveryRecordSentInOrder(records, opts.args.idField, opts.chunkSize);
  }

  /** Without a failure, generate mode gives one pair per record: its action
      and the record. */
  lemma LemmaGeneratedGroups(records: seq<Json>, idField: Option<string>)
    requires ProcessStream(records, Generate(idField)).failure.None?
    ensures var groups := ProcessStream(records, Generate(idField)).groups;
      && |groups| == |records|
      && forall i :: 0 <= i < |records| ==>
        |groups[i]| == 2 && groups[i][1] == records[i] && Normalised(groups[i][0])
  {
    LemmaGeneratePairs(records, idField);
  }

  /** Pass-through mode can split an action from its document: with a
      budget of one line, any two records that pass through (an action line
      and the document after it, say) go out in two different batches. */
  lemma LemmaPassThroughMaySplitPair(action: Json, doc: Json)
    requires ProcessRecord(action, PassThrough).Ok? && ProcessRecord(doc, PassThrough).Ok?
    ensures DispatchedBatches([action, doc], PassThrough, 1)
      == Dispatched([ProcessRecord(action, PassThrough).value, ProcessRecord(doc, PassThrough).value], None)
  {
    var ga := ProcessRecord(action, PassThrough).value;
    var gd := ProcessRecord(doc, PassThrough).value;
    LemmaTwoRecords(action, doc, PassThrough);
    assert ga == [ga[0]] && gd == [gd[0]];
    LemmaSingleLinesApart(ga[0], gd[0]);
    LemmaDispatchedAll([action, doc], PassThrough, 1);
  }

  /** A stream that does not raise hands over all its batches. */
  lemma LemmaDispatchedAll(records: seq<Json>, mode: Mode, chunkSize: nat)
    requires ProcessStream(records, mode).failure.None?
    ensures DispatchedBatches(records, mode, chunkSize)
      == Dispatched(Batches(ProcessStream(records, mode).groups, chunkSize), None)
  {
  }

  /** An action line with no `_type` passes through unchanged. */
  lemma LemmaActionWithoutTypeKept(action: Json)
    requires Normalised(action)
    ensures ProcessRecord(action, PassThrough) == Ok([action])
  {
    var m := action.fields;
    assert m["index"].fields - {"_type"} == m["index"].fields;
    assert m["index" := Object(m["index"].fields - {"_type"})] == m;
  }

  /** With a budget of one line, two one-line groups are sent separately. */
  lemma LemmaSingleLinesApart<T>(a: T, b: T)
    ensures Batches([[a], [b]], 1) == [[a], [b]]
  {
    assert [[a], [b]][..1] == [[a]];
    assert Loop([[a]], 1) == State([], [a]);
  }

  /** The dry-run text reads back into exactly the batches a real run would
      send, serialised, in order, under one request line for the index and
      pipeline. */
  lemma LemmaDryRunShowsBatches(records: seq<Json>, mode: Mode, index: string, pipeline: Option<string>,
                                chunkSize: nat, dumps: Json -> string)
    requires forall j :: dumps(j) != ""
    ensures var shown := ProcessFile(records, mode, index, pipeline, chunkSize, true, dumps);
      var sent := ProcessFile(records, mode, index, pipeline, chunkSize, false, dumps);
      && |sent.requests| == |DispatchedBatches(records, mode, chunkSize).batches|
      && Parse(Header(index, pipeline), shown.printed) == Some(SerialiseAll(Bodies(sent.requests), dumps))
      && shown.failure == sent.failure
  {
    var d := DispatchedBatches(records, mode, chunkSize);
    LemmaShownAsSent(d.batches, index, pipeline, dumps);
  }

  /** Rendering serialised batches and parsing the text back gives the
      serialised bodies of the requests those batches make. */
  lemma LemmaShownAsSent(batches: seq<seq<Json>>, index: string, pipeline: Option<string>, dumps: Json -> string)
    requires forall j :: dumps(j) != ""
    ensures Parse(Header(index, pipeline), RenderAll(index, pipeline, SerialiseAll(batches, dumps)))
      == Some(SerialiseAll(Bodies(Requests(index, pipeline, batches)), dumps))
  {
    LemmaParseRenderAll(index, pipeline, SerialiseAll(batches, dumps));
    assert Bodies(Requests(index, pipeline, batches)) == batches;
  }
}

=== FILE: json.dfy ===
/** The decoded JSON values that flow through both tools. A record read by
    `json.loads` (or a CSV row, whose cells are strings and floats) is a `Json`. */
module JsonValues {

  /** A JSON value. Numbers are decimal `mantissa * 10^exponent`, which covers
      every number `json.loads` and the CSV reader produce except NaN and the
      infinities. Objects are maps: Python dicts keep insertion order, which
      only affects the text `json.dumps` produces, and that text is not
      modelled. */
  datatype Json =
    | Null
    | Bool(b: bool)
    | Number(mantissa: int, exponent: int)
    | Str(s: string)
    | Array(items: seq<Json>)
    | Object(fields: map<string, Json>)

  /** Python truthiness of the decoded value (`if value:`). */
  predicate Truthy(j: Json) {
    match j
    case Null => false
    case Bool(b) => b
    case Number(m, _) => m != 0
    case Str(s) => |s| > 0
    case Array(items) => |items| > 0
    case Object(fields) => |fields| > 0
  }
}

=== FILE: text.dfy ===
/** The Python string operations the importer and exporter rely on:
    `str.strip()`, `str.lower()`, `str.rfind`, slicing from a possibly negative
    index, `str.endswith` and `str.split(sep)`. */
module Text {

  /** Python's `str.isspace()` for one character: the characters `str.strip()`
      with no argument removes. */
  predicate IsSpace(c: char) {
    || ('\t' <= c <= '\r')
    || ('\U{1C}' <= c <= '\U{1F}')
    || c == ' '
    || c == '\U{85}'
    || c == '\U{A0}'
    || c == '\U{1680}'
    || ('\U{2000}' <= c <= '\U{200A}')
    || c == '\U{2028}'
    || c == '\U{2029}'
    || c == '\U{202F}'
    || c == '\U{205F}'
    || c == '\U{3000}'
  }

  predicate AllSpace(s: string) {
    forall i :: 0 <= i < |s| ==> IsSpace(s[i])
  }

  /** Neither begins nor ends with whitespace: what `strip()` returns. */
  predicate Stripped(s: string) {
    |s| == 0 || (!IsSpace(s[0]) && !IsSpace(s[|s| - 1]))
  }

  /** `s.lstrip()`: the suffix of `s` left after dropping leading whitespace. */
  function StripLeft(s: string): (r: string)
    ensures |r| <= |s| && r == s[|s| - |r|..]
    ensures AllSpace(s[..|s| - |r|])
    ensures |r| > 0 ==> !IsSpace(r[0])
    decreases |s|
  {
    if |s| > 0 && IsSpace(s[0]) then StripLeft(s[1..]) else s
  }

  /** `s.rstrip()`: the prefix of `s` left after dropping trailing whitespace. */
  function StripRight(s: string): (r: string)
    ensures |r| <= |s| && r == s[..|r|]
    ensures AllSpace(s[|r|..])
    ensures |r| > 0 ==> !IsSpace(r[|r| - 1])
    decreases |s|
  {
    if |s| > 0 && IsSpace(s[|s| - 1]) then StripRight(s[..|s| - 1]) else s
  }

  /** `s.strip()`: a slice of `s` with only whitespace cut off either end,
      and none left at either end. */
  function Strip(s: string): (r: string)
    ensures Stripped(r)
    ensures exists i, j :: 0 <= i <= j <= |s| && r == s[i..j] && AllSpace(s[..i]) && AllSpace(s[j..])
  {
    var l := StripLeft(s);
    var r := StripRight(l);
    LemmaSliceOfSuffix(s, l, r);
    assert AllSpace(s[..|s| - |l|]) && AllSpace(s[|s| - |l| + |r|..]);
    r
  }

  /** A prefix `r` of a suffix `l` of `s` is a slice of `s`, and what follows
      `r` in `l` is what follows it in `s`. */
  lemma LemmaSliceOfSuffix(s: string, l: string, r: string)
    requires |l| <= |s| && l == s[|s| - |l|..]
    requires |r| <= |l| && r == l[..|r|]
    ensures r == s[|s| - |l|..|s| - |l| + |r|]
    ensures s[|s| - |l| + |r|..] == l[|r|..]
    ensures |r| > 0 ==> r[0] == l[0]
  {
  }

  lemma {:induction false} LemmaStripLeftSpaces(a: string, m: string)
    requires AllSpace(a)
    requires |m| == 0 || !IsSpace(m[0])
    ensures StripLeft(a + m) == m
    decreases |a|
  {
    if |a| > 0 {
      assert (a + m)[1..] == a[1..] + m;
      LemmaStripLeftSpaces(a[1..], m);
    } else {
      assert a + m == m;
    }
  }

  lemma {:induction false} LemmaStripRightSpaces(m: string, b: string)
    requires AllSpace(b)
    requires |m| == 0 || !IsSpace(m[|m| - 1])
    ensures StripRight(m + b) == m
    decreases |b|
  {
    if |b| > 0 {
      assert (m + b)[..|m + b| - 1] == m + b[..|b| - 1];
      LemmaStripRightSpaces(m, b[..|b| - 1]);
    } else {
      assert m + b == m;
    }
  }

  /** `strip()` is determined by its characterisation: whatever text without
      surrounding whitespace sits between two runs of whitespace is what
      `strip()` returns. */
  lemma LemmaStripSurrounded(a: string, m: string, b: string)
    requires AllSpace(a) && AllSpace(b) && Stripped(m)
    ensures Strip(a + m + b) == m
  {
    if |m| > 0 {
      assert a + m + b == a + (m + b);
      LemmaStripLeftSpaces(a, m + b);
      LemmaStripRightSpaces(m, b);
    } else {
      assert a + m + b == a + b;
      assert AllSpace(a + b) by {
        forall i | 0 <= i < |a + b| ensures IsSpace((a + b)[i]) {
          if i < |a| { assert (a + b)[i] == a[i]; } else { assert (a + b)[i] == b[i - |a|]; }
        }
      }
      LemmaStripLeftSpaces(a + b, "");
      assert a + b + "" == a + b;
    }
  }

  /** A string with no surrounding whitespace is its own `strip()`. */
  lemma LemmaStripStripped(s: string)
    requires Stripped(s)
    ensures Strip(s) == s
  {
    LemmaStripSurrounded("", s, "");
    assert "" + s + "" == s;
  }

  /** A string of whitespace only strips to nothing. */
  lemma LemmaStripAllSpace(s: string)
    requires AllSpace(s)
    ensures Strip(s) == ""
  {
    LemmaStripSurrounded(s, "", "");
    assert s + "" + "" == s;
  }

  /** Stripping twice is stripping once. */
  lemma LemmaStripIdempotent(s: string)
    ensures Strip(Strip(s)) == Strip(s)
  {
    LemmaStripSurrounded("", Strip(s), "");
    assert "" + Strip(s) + "" == Strip(s);
  }

  /** `c.lower()` for one character; only ASCII letters are mapped. */
  function LowerChar(c: char): (lc: char) {
    if 'A' <= c <= 'Z' then (c as int + 32) as char else c
  }

  /** `s.lower()`, restricted to ASCII case mapping. */
  function Lower(s: string): (r: string)
    ensures |r| == |s|
    ensures forall i :: 0 <= i < |s| ==> r[i] == LowerChar(s[i])
  {
    seq(|s|, i requires 0 <= i < |s| => LowerChar(s[i]))
  }

  /** `s.rfind(c)`: the last index holding `c`, or -1 when there is none. */
  function RFind(s: string, c: char): (r: int)
    ensures -1 <= r < |s|
    ensures r >= 0 ==> s[r] == c && forall k :: r < k < |s| ==> s[k] != c
    ensures r == -1 ==> forall k :: 0 <= k < |s| ==> s[k] != c
    decreases |s|
  {
    if |s| == 0 then -1
    else if s[|s| - 1] == c then |s| - 1
    else RFind(s[..|s| - 1], c)
  }

  /** `s[i:]` for an index that may be negative (counted from the end). */
  function SliceFrom(s: string, i: int): (r: string)
    ensures i >= 0 && i <= |s| ==> r == s[i..]
    ensures i < 0 ==> r == s[if |s| + i < 0 then 0 else |s| + i..]
    ensures i > |s| ==> r == ""
  {
    if i < 0 then (if |s| + i < 0 then s else s[|s| + i..])
    else if i > |s| then ""
    else s[i..]
  }

  /** Lower-casing leaves no ASCII capital, so doing it twice changes
      nothing more. */
  lemma LemmaLowerNoCapital(s: string)
    ensures forall i :: 0 <= i < |Lower(s)| ==> !('A' <= Lower(s)[i] <= 'Z')
    ensures Lower(Lower(s)) == Lower(s)
  {
  }

  /** Whatever the index, `s[i:]` is a suffix of `s`; `s[-1:]` is the last
      character alone. */
  lemma LemmaSliceFromSuffix(s: string, i: int)
    ensures |SliceFrom(s, i)| <= |s| && SliceFrom(s, i) == s[|s| - |SliceFrom(s, i)|..]
    ensures i == -1 && |s| > 0 ==> SliceFrom(s, i) == [s[|s| - 1]]
  {
  }

  /** `s.endswith(suffix)`: `s` is some text followed by `suffix`. */
  predicate EndsWith(s: string, suffix: string)
    ensures EndsWith(s, suffix) <==> |suffix| <= |s| && s == s[..|s| - |suffix|] + suffix
  {
    |suffix| <= |s| && s[|s| - |suffix|..] == suffix
  }

  /** `s.split(sep)` for a one-character separator: the pieces between
      separators, empty pieces included, at least one piece. */
  function Split(s: string, sep: char): (parts: seq<string>)
    ensures |parts| >= 1
    ensures forall i :: 0 <= i < |parts| ==> sep !in parts[i]
    decreases |s|
  {
    if |s| == 0 then [""]
    else if s[0] == sep then [""] + Split(s[1..], sep)
    else
      var rest := Split(s[1..], sep);
      [[s[0]] + rest[0]] + rest[1..]
  }

  /** `sep.join(parts)`. */
  function Join(parts: seq<string>, sep: char): (s: string)
    requires |parts| >= 1
    decreases |parts|
  {
    if |parts| == 1 then parts[0] else parts[0] + [sep] + Join(parts[1..], sep)
  }

  /** Splitting loses nothing: joining the pieces with the separator gives
      the original string back. */
  lemma {:induction false} LemmaJoinSplit(s: string, sep: char)
    ensures Join(Split(s, sep), sep) == s
    decreases |s|
  {
    if |s| == 0 {
    } else if s[0] == sep {
      LemmaJoinSplit(s[1..], sep);
      assert s == [sep] + s[1..];
    } else {
      var rest := Split(s[1..], sep);
      LemmaJoinSplit(s[1..], sep);
      if |rest| == 1 {
        assert s == [s[0]] + s[1..];
      } else {
        assert Join(rest, sep) == rest[0] + [sep] + Join(rest[1..], sep);
        assert s == [s[0]] + s[1..];
      }
    }
  }

  lemma {:induction false} LemmaSplitPrefix(p: string, t: string, sep: char)
    requires sep !in p
    ensures Split(p + [sep] + t, sep) == [p] + Split(t, sep)
    decreases |p|
  {
    if |p| == 0 {
      assert p + [sep] + t == [sep] + t;
      assert ([sep] + t)[1..] == t;
    } else {
      assert (p + [sep] + t)[1..] == p[1..] + [sep] + t;
      LemmaSplitPrefix(p[1..], t, sep);
      assert [p[0]] + p[1..] == p;
    }
  }

  lemma {:induction false} LemmaSplitNoSep(p: string, sep: char)
    requires sep !in p
    ensures Split(p, sep) == [p]
    decreases |p|
  {
    if |p| > 0 {
      LemmaSplitNoSep(p[1..], sep);
      assert [p[0]] + p[1..] == p;
    }
  }

  /** Joining pieces that do not contain the separator and splitting again
      gives the same pieces back. */
  lemma {:induction false} LemmaSplitJoin(parts: seq<string>, sep: char)
    requires |parts| >= 1
    requires forall i :: 0 <= i < |parts| ==> sep !in parts[i]
    ensures Split(Join(parts, sep), sep) == parts
    decreases |parts|
  {
    if |parts| == 1 {
      LemmaSplitNoSep(parts[0], sep);
    } else {
      LemmaSplitJoin(parts[1..], sep);
      LemmaSplitPrefix(parts[0], Join(parts[1..], sep), sep);
      assert [parts[0]] + parts[1..] == parts;
    }
  }
}
